=== FILE: README.md ===
# carga_incremental — a Dafny model of the incremental load

This project models the decision logic of `LoadData.load_all_data` in
`src/loaddata/carga.py`. That method loads a pandas DataFrame into a
PostgreSQL table in one of two ways:

- **Incremental:** each row gets a deterministic key. The key is either
  derived from chosen columns (`uid_cols`) or taken from a column the
  caller names (`uid_need`). Only rows whose key is not already stored are
  appended.
- **Truncate:** the table is emptied and every row is appended.

If the target table does not exist yet, the load creates it with every
row.

The model is functional. Rows, cells, options, read outcomes and writes are
immutable datatypes, and every step is a pure function. The database is not
called. The result of the read, of the truncation and of the two `to_sql`
calls is passed in as a value, and the model returns the writes that took effect, the reported
count, and the printed diagnostic.

Modules, one per piece of the source:

- `Config`: the option checks and the `"schema.table"` split. A valid call
  becomes a tagged mode: `TruncateAll`, `DeriveKey(cols)` or
  `ExistingKey(column)`.
- `Identity`: `unique_id_` and `text_tonum`. Key cells are coerced to text,
  joined with `_`, lower-cased, NFKD-folded, stripped to `[a-z0-9]` and
  hashed with SHA-256. The first 16 hex digits are read as a number and
  reduced mod 2^63.
- `Reconcile`: the left merge restricted to `left_only` rows. This is an
  order-preserving anti-join filter.
- `Lifecycle`: the `try` block and the `except` branch. The `except` branch
  covers the "table missing" classifier, the first-line diagnostic and the
  create-on-first-load path.
- `Report`: the sentinel-framed `{"datos_aniadidos": N}` text.
- `LoadProperties`: what a whole load writes and reports on each path.
- `BootstrapFinding` and `MisreadFinding`: the two findings below, each as
  written and corrected.
- Supporting modules:
  - `Strings`: ASCII lower-casing, character filters, substring search and
    `str.split`.
  - `Numerals`: `str(int)` and `int(h, 16)`, each with its inverse.
  - `Tables`: the DataFrame.
  - `Foreign`: the library routines that are not modelled.
  - `Wrappers`: `Option` and `Result`.

## Design notes

- **Library routines as parameters.** Python's Unicode `str.lower`, NFKD
  normalisation (Unicode Standard Annex #15, section 1.2) and SHA-256
  (FIPS 180-4, section 6.2) come from libraries. They are passed as function
  values in a `TextLib` record.
  - The digest type fixes their output shape: 64 lower-case hex digits.
  - `Faithful(lib)` states the only behaviour the proofs rely on: on ASCII
    text, `lower` maps `A`-`Z` to `a`-`z` and NFKD is the identity.
- **The `except` clause catches more than the read.** The `except` at
  carga.py:229 catches every error raised in the `try` block. That includes
  the missing-key-column `ValueError`, the merge's `KeyError` and a failing
  append. It then works on whatever table the load held at that moment,
  which may already be keyed or filtered. `Try` returns that table with the
  error, and `Recover` continues from it.
- **Source behaviour kept as written.** In these places the model follows
  carga.py:
  - `uid_need` is not validated or copied into `unique_id`. Derivation tests
    `uid_need is not None`, but the merge tests truthiness. So
    `uid_need=""` skips derivation and then joins on `unique_id`.
  - The truncation is committed in its own transaction, before the append.
    An append that then fails leaves the table empty.
  - `truncate_table` drops the errors of its three SQL statements. When the
    `TRUNCATE` fails, the load still appends every row, so the table keeps
    its old rows too. Errors in opening the connection or the transaction,
    or in committing it, are not caught there: they skip the append and
    reach the load's `except`.
  - When the table is missing, only the column names are lower-cased. The
    key column names the caller passed are not.
  - The create in the `except` branch keeps `to_sql`'s default
    `if_exists='fail'`. After a successful read the table exists, so that
    create fails with pandas' "Table '<t>' already exists." error.

## Model

| member | source | states |
|---|---|---|
| Config.CheckOptions | src/loaddata/carga.py:148-155 | Refused exactly when `uid_cols` is not a list, or when `uid_cols` and `uid_need` are both absent and `truncate` is false. Truncate wins over keys, and `uid_need` wins over `uid_cols` |
| Config.ParseTableRef | src/loaddata/carga.py:165-176 | Accepted iff the reference holds exactly one dot. Schema and table are then the dot-free text on either side of it, and rebuilding them gives back the reference |
| Config.Validate | src/loaddata/carga.py:148-176 | Option errors are reported before a bad table reference, and good options with a bad reference give the reference error. A valid plan carries the mode the options choose and the parsed target, which rebuilds the reference |
| Config.NoDotRefused | src/loaddata/carga.py:165-176 | `"public_table"` is refused |
| Config.TwoDotsRefused | src/loaddata/carga.py:165-176 | `"a.b.c"` is refused |
| Config.LeadingDotAccepted | src/loaddata/carga.py:165-176 | `".t"` is accepted with an empty schema |
| Strings.Split | src/loaddata/carga.py:165 | `str.split`: at least one part, no part holds the separator, and the first part is the text before the first separator |
| Strings.SplitCount | src/loaddata/carga.py:165-167 | There is one more part than there are separators |
| Strings.SplitJoin | src/loaddata/carga.py:165 | Joining the parts with the separator gives back the string |
| Strings.JoinSplit | src/loaddata/carga.py:114 | Splitting a join of separator-free parts gives back the parts |
| Strings.FirstLine | src/loaddata/carga.py:232 | The diagnostic is a prefix of the message, holds no newline, and stops exactly at the first newline |
| Strings.ContainsIff | src/loaddata/carga.py:239 | The scanning `in` test holds iff the pattern occurs at some position |
| Lifecycle.IsMissingTable | src/loaddata/carga.py:236-239 | "Table missing" iff the lower-cased message contains `does not exist`, `invalid object name` or `no such table` |
| Strings.FilterIdempotent | src/loaddata/carga.py:116-119 | Applying a character filter twice is the same as applying it once |
| Strings.FilterConcat | src/loaddata/carga.py:119 | A character filter distributes over concatenation |
| Identity.CellText | src/loaddata/carga.py:92-109 | A null key cell becomes `"0"` in a numeric column and `""` in a categorical or text column. Text is kept as is. An integer prints with a minus sign iff it is negative, and otherwise reads back as itself |
| Identity.Normalize | src/loaddata/carga.py:115-119 | The normalised key holds only `[a-z0-9]` |
| Identity.NormalizeIdempotent | src/loaddata/carga.py:112-120 | Normalising a normalised key changes nothing |
| Identity.SeparatorVanishes | src/loaddata/carga.py:114-119 | On ASCII cells, joining with `_` gives the same key as plain concatenation, because `_` is stripped |
| Identity.CaseInsensitive | src/loaddata/carga.py:115 | ASCII keys that agree up to case normalise alike |
| Numerals.HexValue | src/loaddata/carga.py:69 | `int(h, 16)` of a k-digit hex string is below 16^k |
| Numerals.HexRoundTrip | src/loaddata/carga.py:69 | Reading back the fixed-width hex numeral of n gives n |
| Numerals.NatToStringRoundTrip | src/loaddata/carga.py:105 | Reading back `str(n)` gives n |
| Numerals.IntToString | src/loaddata/carga.py:105 | `str(i)` starts with `-` iff i is negative. The digits read back as the magnitude |
| Identity.TextToNum | src/loaddata/carga.py:63-69 | The 16-hex-digit digest prefix is below 2^64 |
| Identity.UniqueId | src/loaddata/carga.py:123 | `unique_id` is below 2^63. The mod 2^63 reduction only clears the top bit of the prefix |
| Identity.JoinUnderscoreSplits | src/loaddata/carga.py:114 | The `_`-joined key text of cells free of `_` splits back into those cells |
| Identity.KeyText | src/loaddata/carga.py:112-119 | A row's normalised key text holds only `[a-z0-9]` |
| Identity.RowId | src/loaddata/carga.py:112-123 | Every derived key fits a signed 64-bit column |
| Identity.KeyParts | src/loaddata/carga.py:88-109 | The key texts are the coerced cells of the `uid_cols` columns, in `uid_cols` order |
| Identity.KeyDependsOnlyOnKeyCells | src/loaddata/carga.py:88-123 | Rows that agree on the kind and value of every key column get the same `unique_id`, whatever their other columns or column order |
| Identity.FirstMissing | src/loaddata/carga.py:84-86 | Finds the first `uid_cols` entry, in list order, that is not a column, or reports that all are present |
| Identity.Derive | src/loaddata/carga.py:76-123 | Fails iff a key column is missing, naming the first one and changing nothing. Otherwise sets `unique_id` to each row's key, appending it when absent, and leaves every other column and cell unchanged |
| Tables.WithColumn | src/loaddata/carga.py:123 | `df[name] = values` overwrites an existing column in place or appends a new one. Every other cell is untouched |
| Tables.LowerColumns | src/loaddata/carga.py:242 | Only the column names change, each through `lower` |
| IdentityExamples.SplitCellsCollide | src/loaddata/carga.py:114-119 | `("ab","c")` and `("a","bc")` give the same key |
| IdentityExamples.CaseVariantsCollide | src/loaddata/carga.py:112-123 | `("Ana","a@x.com")` and `("ana","A@x.com")` get the same `unique_id` |
| IdentityExamples.NullMatchesEmptyText | src/loaddata/carga.py:107-109 | In a text key column, a null and `""` get the same `unique_id` |
| IdentityExamples.NullMatchesZero | src/loaddata/carga.py:103-105 | In a numeric key column, a null and 0 get the same `unique_id` |
| Reconcile.NewRows | src/loaddata/carga.py:198-216 | Every kept row is an input row whose key is not persisted |
| Reconcile.NewRowsCount | src/loaddata/carga.py:198-216 | Each row is kept exactly as often as it occurs in the input when its key is new, and never otherwise. Duplicates are kept and rows are unchanged |
| Reconcile.NewRowsInOrder | src/loaddata/carga.py:214-216 | Kept rows keep their original relative order |
| Reconcile.NewRowKept | src/loaddata/carga.py:198-216 | A row whose key is not persisted is appended |
| Reconcile.AllPersistedNothingNew | src/loaddata/carga.py:214-218 | When every key is already stored, nothing is appended |
| Reconcile.SecondPassEmpty | src/loaddata/carga.py:198-218 | Filtering again, once the kept rows are stored, keeps nothing |
| Reconcile.SecondPassEmptyWithin | src/loaddata/carga.py:198-218 | Filtering again against any stored key list that holds the earlier and the newly kept keys, in any order and alongside other keys, keeps nothing |
| Reconcile.FilterNew | src/loaddata/carga.py:214-216 | The row-by-row filter computes the anti-join, and no kept row has a persisted key |
| Reconcile.AntiJoin | src/loaddata/carga.py:199-214 | The snapshot lacking the key column fails first, then the input lacking it. Otherwise the columns are unchanged and the rows are the anti-join on that column |
| Lifecycle.AppendNew | src/loaddata/carga.py:198-227 | Either one append of at most the input's rows, with the count equal to its length, or an error with no write |
| Lifecycle.Try | src/loaddata/carga.py:180-227 | The `try` block completes only when the read and the append succeed. Truncate mode counts every input row and appends all of them, after a truncate write only when `truncate_table` succeeded. An incremental load writes one append and counts its rows. An interruption after a write happens only after a successful truncation. A `truncate_table` that raises interrupts the block before the append, with nothing written |
| Lifecycle.Message | src/loaddata/carga.py:84-86 | The text of each error the `try` block raises names its column: the missing key column of `unique_id_`, and pandas' `KeyError` text for the merge key. A database error keeps the driver's text |
| Lifecycle.Bootstrap | src/loaddata/carga.py:241-250 | On a missing table, truncate and named-key loads keep every row under lower-cased names. A derived-key load succeeds iff every `uid_cols` entry is among the lower-cased names, and fails naming one that is not. Otherwise it keeps every other column under its lower-cased name with its cells unchanged, and gives each row its key from the lower-cased table |
| Lifecycle.Recover | src/loaddata/carga.py:229-256 | The first line of the message is always the diagnostic. A non-missing error is raised again unchanged. Success happens exactly when the table is missing, the first-load table can be built and the create succeeds. It is then a single create of that first-load table (lower-cased, keyed unless truncating) holding every current row, with that count reported. A raise adds no write |
| Lifecycle.Load | src/loaddata/carga.py:126-258 | A configuration error raises before any write. A finished load ends with an append or create, and its count is that write's row count. After a successful read no create takes effect, because `to_sql` refuses an existing table |
| LoadProperties.TruncateReplacesContents | src/loaddata/carga.py:220-227 | A truncating load whose truncation succeeds leaves the table holding exactly the input rows, whatever it held before |
| LoadProperties.SwallowedTruncateKeepsOldRows | src/loaddata/carga.py:42-55 | When `truncate_table` drops the error of one of its SQL statements, every input row is appended and counted, so the table holds its old rows followed by the input |
| LoadProperties.ExistingKeyAppendsOnlyNew | src/loaddata/carga.py:198-227 | A load with a non-empty `uid_need` joins on that column: it appends exactly the input rows whose value there is not stored, and reports that count |
| LoadProperties.IncrementalAppendsOnlyNew | src/loaddata/carga.py:185-227 | A derived-key load appends exactly the keyed rows whose key is not stored, and reports that count |
| LoadProperties.SecondLoadAppendsNothing | src/loaddata/carga.py:185-227 | Loading the same rows again appends zero rows, once the table holds every key the first load found or appended, whatever other rows it holds and in whatever order they are read |
| LoadProperties.MissingTableCreatedWithKeys | src/loaddata/carga.py:229-253 | A missing table is created from the derived-key table over lower-cased columns, holding every input row once |
| LoadProperties.MissingTableCreatedAsIs | src/loaddata/carga.py:241-253 | In truncate or named-key mode, a missing table is created from the lower-cased input with no key derived |
| LoadProperties.OtherReadErrorRaised | src/loaddata/carga.py:229-256 | Any other read error is raised again after its first line is printed, and nothing is written |
| LoadProperties.FailedAppendAfterTruncateLeavesTableEmpty | src/loaddata/carga.py:220-227 | An append that fails after a successful truncation raises with the table already empty |
| LoadProperties.FailedAppendAfterSwallowedTruncateKeepsTable | src/loaddata/carga.py:42-55 | An append that fails after a swallowed truncation raises and leaves the table as it was |
| LoadProperties.RaisingTruncateSkipsAppend | src/loaddata/carga.py:39-41 | When `truncate_table` raises outside its own `try`, the append is skipped, the error is raised again and the table is left as it was |
| LoadProperties.EmptyUidNeedJoinsOnUniqueId | src/loaddata/carga.py:76-78 | `uid_need=""` skips derivation, but the merge joins on `unique_id`. An input without that column raises `KeyError('unique_id')` |
| BootstrapFinding.FirstLoadLooksUpKeysAfterLowering | src/loaddata/carga.py:241-247 | When the table is missing and a key column is not found among the lower-cased names, the load raises a missing-column error and writes nothing |
| BootstrapFinding.MixedCaseKeyFailsFirstLoad | src/loaddata/carga.py:242-247 | `uid_cols=["Name"]` derives on the original table but cannot be found once the columns are lower-cased |
| BootstrapFinding.BootstrapFixed | src/loaddata/carga.py:241-250 | Corrected: when every key column is present, the first-load derivation succeeds for every row |
| MisreadFinding.ColumnErrorLooksLikeMissingTable | src/loaddata/carga.py:236-239 | PostgreSQL's unknown-column message passes the "table missing" test |
| MisreadFinding.AppendErrorMasked | src/loaddata/carga.py:227-253 | As written: after a successful read and truncation, an append error that reads as "table missing" is replaced by the failed create's "already exists" error, with the table already emptied |
| MisreadFinding.ColumnErrorHidden | src/loaddata/carga.py:227-253 | The unknown-column error is not the error the load raises |
| MisreadFinding.LoadFixed | src/loaddata/carga.py:229-256 | Corrected: after a successful read an interrupted load raises the `try` block's own error after printing its first line. After a failed read it behaves as the load as written |
| MisreadFinding.ColumnErrorReportedWhenFixed | src/loaddata/carga.py:227-256 | The corrected load raises the unknown-column error itself |
| Report.ReportText | src/loaddata/carga.py:266-269 | The report starts with the opening sentinel and JSON key, and ends with the closing brace and sentinel |
| Report.ReportRoundTrip | src/loaddata/carga.py:266-269 | Parsing the report gives back the count |
| Report.Printed | src/loaddata/carga.py:258-269 | A report is printed iff the load finished, and it carries the appended-row count |

## Findings

| source | as written | input that shows it | evidently intended | confidence | as-written member | corrected member |
|---|---|---|---|---|---|---|
| src/loaddata/carga.py:241-247 | On the first load into a missing table, the column names are lower-cased before `unique_id_` runs. `unique_id_` still looks up the caller's `uid_cols` as given | `uid_cols=["Name"]`, a DataFrame with a `Name` column, and a target table that does not exist yet: `ValueError` "La columna 'Name' no existe", and no table is created | Look up the key columns under their lower-cased names, as the table's own columns are | medium; not executed | BootstrapFinding.MixedCaseKeyFailsFirstLoad | BootstrapFinding.BootstrapFixed |
| src/loaddata/carga.py:236-253 | An error in the `try` block whose text contains "does not exist" is taken for a missing table even when the read at :181 succeeded. The create that follows meets the existing table and fails | `truncate=True` and an input column `x` that the existing table `s.t` lacks: the table is truncated, the append fails with `column "x" of relation "t" does not exist`, and the load raises "Table 't' already exists." instead | Take the missing-table path only when the table is missing, and otherwise raise the original error | medium; not executed | MisreadFinding.ColumnErrorHidden | MisreadFinding.LoadFixed |

`Lifecycle.Load` keeps the source behaviour. `BootstrapFinding.BootstrapFixed`
is the corrected first-load step, and `MisreadFinding.LoadFixed` the
corrected error handling. Their guarantees are proved separately.

## Left out

- Engine construction from environment variables (carga.py:20-26), `pd.read_sql` and both `to_sql` calls: these are I/O. Their results are inputs (`ReadOutcome`, `WriteOutcome`), and their effects are returned as `Write` values.
- `truncate_table` (carga.py:28-55): raw SQL on its own connection. Whether it succeeded is an input (`TruncateOutcome`). Success is the `Truncated` write. A swallowed failure of its statements writes nothing, and the line it prints is not modelled. A failure it does not catch (connection, transaction or commit) writes nothing and is raised into the load's `except`.
- The SHA-256 algorithm, NFKD tables and Python's lower-casing of non-ASCII letters: these are library behaviour. They are function parameters, constrained only by output shape and by `Foreign.Faithful` on ASCII text.
- Foreign.Faithful: states less than Python guarantees. It fixes `lower` and NFKD only on ASCII text.
- pandas details:
  - dtype inference: a column kind is a tag.
  - Float printing: numeric cells are integers, so a filled float NaN that pandas prints as `"0.0"` is modelled as `"0"`.
  - `add_categories` mechanics and index resets.
- Identity.CellText: does not model pandas' float printing, because numeric cells are integers.
- Errors of a merge between differently typed key columns: in the model, cells of different constructors simply do not match.
- Duplicate column names, and a `uid_cols` list that names a column twice: the model looks columns up by their first occurrence. Aggregation over an empty `uid_cols` list is modelled as Python's `"_".join` on the cells.
- Lifecycle.Message: the texts of pandas' `KeyError`s follow current pandas wording. Only whether they contain the "table missing" phrases matters.
- `truncate` is a boolean. The source tests `truncate is False`, so a non-boolean falsy value would pass the check and then fail inside derivation. That case is not modelled.
- A non-DataFrame `input_table` (carga.py:71-72, 241): the model's input is always a table.
- Console output other than the first-line diagnostic and the report.
- The date helpers (carga.py:271-335): unrelated to loading.
- A frame with no rows: the model derives no keys and appends nothing. In pandas, `agg("_".join, axis=1)` on a zero-row frame returns a DataFrame, so `.str.lower()` (carga.py:115) is expected to raise `AttributeError`. An incremental load of an empty frame would then raise instead of appending 0 rows. This has not been executed.
- The `index` column: the create at carga.py:253 keeps pandas' default `index=True`, so the created table also gets an `index` column. The model's created table holds only the frame's own columns.
- Changes to the caller's DataFrame: `unique_id_` adds `unique_id` to the object the caller passed (carga.py:123), and the missing-table branch lower-cases that object's column names (carga.py:242). The model's `Outcome` returns only the writes and the count, not the caller's changed table.
- Concurrent writers between the read and the append: concurrency is not modelled.

=== FILE: bootstrap_finding.dfy ===
/** The first load into a missing table lower-cases the column names before
    deriving keys, but looks the key columns up under the caller's
    spelling. A key column whose name has a capital letter is therefore
    found by every later load and never by the first one. */
module BootstrapFinding {
  import opened Wrappers
  import opened Strings
  import opened Foreign
  import opened Tables
  import opened Config
  import opened Identity
  import opened Lifecycle

  function NameTable(): Table
  {
    Table([Column("Name", Textual)], [[Str("Ana")]])
  }

  lemma NameLowered(lib: TextLib)
    requires Faithful(lib)
    ensures lib.lower("Name") == "name"
    ensures LowerColumns(NameTable(), lib.lower).Names() == ["name"]
  {
    assert IsAscii("Name");
    var l := AsciiLower("Name");
    assert l[0] == 'n' && l[1] == 'a' && l[2] == 'm' && l[3] == 'e';
  }

  /** As written: when the table is missing and some key column is not
      found once the column names are lower-cased, the load raises the
      missing-column error and creates nothing. */
  lemma FirstLoadLooksUpKeysAfterLowering(lib: TextLib, opts: Options, out: string, input: Table,
                                          message: string, truncation: TruncateOutcome, append: WriteOutcome,
                                          create: WriteOutcome)
    requires input.WellFormed()
    requires Validate(opts, out).Success? && !opts.truncate && opts.uidNeed.None? && opts.uidCols.ColList?
    requires IsMissingTable(lib, message)
    requires !HasColumns(LowerColumns(input, lib.lower), opts.uidCols.names)
    ensures var o := Load(lib, opts, out, input, ReadFailed(message), truncation, append, create);
            o.Raised? && o.writes == [] && o.error.MissingColumn?
  {
  }

  /** The counterexample: `uid_cols=["Name"]` and a table holding a `Name`
      column. Its key is derived normally, yet the first load into a missing
      table cannot find `Name` among the lower-cased columns. */
  lemma MixedCaseKeyFailsFirstLoad(lib: TextLib)
    requires Faithful(lib)
    ensures HasColumns(NameTable(), ["Name"]) && Derive(lib, NameTable(), ["Name"]).Success?
    ensures !HasColumns(LowerColumns(NameTable(), lib.lower), ["Name"])
  {
    assert NameTable().Names() == ["Name"];
    NameLowered(lib);
    assert "Name" in ["Name"];
  }

  /** The key column names as the lower-cased table spells them. */
  function LowerNames(lib: TextLib, cols: seq<string>): (ls: seq<string>)
    ensures |ls| == |cols| && forall i :: 0 <= i < |cols| ==> ls[i] == lib.lower(cols[i])
  {
    seq(|cols|, i requires 0 <= i < |cols| => lib.lower(cols[i]))
  }

  /** Lower-casing the column names keeps every column findable under its
      lower-cased name. */
  lemma LoweredColumnsFound(lib: TextLib, t: Table, cols: seq<string>)
    ensures HasColumns(t, cols) ==> HasColumns(LowerColumns(t, lib.lower), LowerNames(lib, cols))
  {
    if HasColumns(t, cols) {
      LoweredColumnsFoundWhenPresent(lib, t, cols);
    }
  }

  lemma LoweredColumnsFoundWhenPresent(lib: TextLib, t: Table, cols: seq<string>)
    requires HasColumns(t, cols)
    ensures HasColumns(LowerColumns(t, lib.lower), LowerNames(lib, cols))
  {
    var lowered := LowerColumns(t, lib.lower);
    forall c | c in LowerNames(lib, cols) ensures lowered.HasColumn(c) {
      var i :| 0 <= i < |cols| && LowerNames(lib, cols)[i] == c;
      assert cols[i] in cols;
      var j :| 0 <= j < |t.columns| && t.Names()[j] == cols[i];
      assert lowered.Names()[j] == c;
    }
  }

  /** Corrected: the bootstrap looks the key columns up under their
      lower-cased names, so whenever the input has every key column the
      derivation succeeds, for every row. */
  function BootstrapFixed(lib: TextLib, mode: Mode, current: Table): (r: Result<Table, string>)
    requires current.WellFormed()
    ensures mode.DeriveKey? && HasColumns(current, mode.cols) ==> r.Success?
    ensures r.Success? ==> r.value.WellFormed() && |r.value.rows| == |current.rows|
    ensures !mode.DeriveKey? ==> r == Success(LowerColumns(current, lib.lower))
  {
    var lowered := LowerColumns(current, lib.lower);
    if mode.DeriveKey? then
      LoweredColumnsFound(lib, current, mode.cols);
      Derive(lib, lowered, LowerNames(lib, mode.cols))
    else Success(lowered)
  }

  /** The corrected bootstrap accepts the example the source rejects. */
  lemma MixedCaseKeyFixed(lib: TextLib)
    ensures BootstrapFixed(lib, DeriveKey(["Name"]), NameTable()).Success?
  {
    assert NameTable().Names() == ["Name"];
  }
}

=== FILE: config.dfy ===
/** The argument checks at the top of `load_all_data`: which key options
    may be combined, and the `"schema.table"` target reference. A valid
    call is condensed into a tagged load mode. */
module Config {
  import opened Wrappers
  import opened Strings

  /** The `uid_cols` argument: omitted (`None`), a list of column names, or
      some other object. */
  datatype UidCols = NoCols | ColList(names: seq<string>) | NotAList

  datatype Options = Options(uidCols: UidCols, uidNeed: Option<string>, truncate: bool)

  /** What the load will do with keys.
      - `TruncateAll`: empty the table and append every row, no key at all;
      - `DeriveKey(cols)`: derive `unique_id` from `cols` and load only new rows;
      - `ExistingKey(column)`: the caller names a key column (`uid_need`),
        nothing is derived. */
  datatype Mode = TruncateAll | DeriveKey(cols: seq<string>) | ExistingKey(column: string)

  datatype ConfigError = NoKeyGiven | UidColsNotList | BadTableRef

  datatype TableRef = TableRef(schema: string, table: string)

  datatype Plan = Plan(mode: Mode, target: TableRef)

  /** The option checks (carga.py:148-155) followed by the branch the load
      takes (`if not truncate`, then `uid_need is not None` inside key
      derivation). */
  function CheckOptions(o: Options): (r: Result<Mode, ConfigError>)
    ensures r.Failure? <==> o.uidCols.NotAList? || (o.uidCols.NoCols? && o.uidNeed.None? && !o.truncate)
    ensures r == Failure(UidColsNotList) <==> o.uidCols.NotAList?
    ensures r.Success? && o.truncate ==> r.value == TruncateAll
    ensures r.Success? && !o.truncate && o.uidNeed.Some? ==> r.value == ExistingKey(o.uidNeed.value)
    ensures r.Success? && !o.truncate && o.uidNeed.None? ==> r.value == DeriveKey(o.uidCols.names)
  {
    match o.uidCols
    case NotAList => Failure(UidColsNotList)
    case NoCols =>
      if o.uidNeed.None? && !o.truncate then Failure(NoKeyGiven)
      else if o.truncate then Success(TruncateAll)
      else Success(ExistingKey(o.uidNeed.value))
    case ColList(cs) =>
      if o.truncate then Success(TruncateAll)
      else if o.uidNeed.Some? then Success(ExistingKey(o.uidNeed.value))
      else Success(DeriveKey(cs))
  }

  /** `output_table.split('.')` must give exactly two parts (carga.py:165-176):
      accepted iff the reference holds exactly one dot, and then schema and
      table are the text on either side of it (either may be empty). */
  function ParseTableRef(s: string): (r: Result<TableRef, ConfigError>)
    ensures r.Success? <==> Occurrences(s, '.') == 1
    ensures r.Failure? ==> r.error == BadTableRef
    ensures r.Success? ==> r.value.schema + "." + r.value.table == s
    ensures r.Success? ==> '.' !in r.value.schema && '.' !in r.value.table
  {
    SplitCount(s, '.');
    SplitJoin(s, '.');
    var parts := Split(s, '.');
    if |parts| == 2 then Success(TableRef(parts[0], parts[1])) else Failure(BadTableRef)
  }

  /** Everything checked before the database is touched; option errors are
      reported before a bad table reference. */
  function Validate(o: Options, outputTable: string): (r: Result<Plan, ConfigError>)
    ensures r.Success? <==> CheckOptions(o).Success? && ParseTableRef(outputTable).Success?
    ensures CheckOptions(o).Failure? ==> r == Failure(CheckOptions(o).error)
    ensures r.Success? ==> r.value.target.schema + "." + r.value.target.table == outputTable
    ensures r.Success? ==> r.value.mode == CheckOptions(o).value && r.value.target == ParseTableRef(outputTable).value
    ensures CheckOptions(o).Success? && ParseTableRef(outputTable).Failure? ==> r == Failure(BadTableRef)
  {
    var mode :- CheckOptions(o);
    var target :- ParseTableRef(outputTable);
    Success(Plan(mode, target))
  }

  /** A reference without a dot is refused before the database is touched. */
  lemma NoDotRefused()
    ensures ParseTableRef("public_table") == Failure(BadTableRef)
  {
    assert Occurrences("public_table", '.') == 0;
  }

  /** A reference with two dots is refused. */
  lemma TwoDotsRefused()
    ensures ParseTableRef("a.b.c") == Failure(BadTableRef)
  {
    assert Occurrences("a.b.c", '.') == 2;
  }

  /** A leading dot is accepted, with an empty schema. */
  lemma LeadingDotAccepted()
    ensures ParseTableRef(".t") == Success(TableRef("", "t"))
  {
    assert Occurrences(".t", '.') == 1;
    var r := ParseTableRef(".t").value;
    assert r.schema + "." + r.table == ".t";
  }
}

=== FILE: foreign.dfy ===
/** The library routines the key derivation calls but this model does not
    define: Python's Unicode `str.lower`, NFKD normalisation (Unicode Standard
    Annex #15, section 1.2) and SHA-256 (FIPS 180-4, section 6.2). They are
    passed in as function values; only their output shape and their
    behaviour on ASCII text are fixed. */
module Foreign {
  import opened Strings
  import opened Numerals

  /** `hashlib.sha256(...).hexdigest()`: 64 lower-case hex digits. */
  type Digest = s: string | |s| == 64 && AllHexDigits(s)
    witness Zeros(64)

  /** `sha256` receives the key string; the key is ASCII by construction,
      so its UTF-8 encoding has one byte per character. */
  datatype TextLib = TextLib(lower: string -> string, nfkd: string -> string, sha256: string -> Digest)

  /** On ASCII text Python's `lower` only maps `A`-`Z` to `a`-`z`, and NFKD
      changes nothing. */
  ghost predicate Faithful(lib: TextLib)
  {
    forall s :: IsAscii(s) ==> lib.lower(s) == AsciiLower(s) && lib.nfkd(s) == s
  }
}

=== FILE: identity.dfy ===
/** Row-key derivation (`LoadData.unique_id_` with its helper `text_tonum`,
    carga.py:57-123): the key cells of a row are turned into text, joined
    with `_`, normalised to `[a-z0-9]`, hashed with SHA-256, and the first
    16 hex digits of the digest, reduced modulo 2^63, become the row's
    `unique_id`. */
module Identity {
  import opened Wrappers
  import opened Strings
  import opened Numerals
  import opened Foreign
  import opened Tables

  /** Name of the derived key column. */
  const KeyColumn: string := "unique_id"

  /** 2^63: derived keys fit a signed 64-bit column. */
  const Modulus: nat := 0x8000_0000_0000_0000

  // ---------------------------------------------------------------- coercion to text

  /** How one key cell becomes text (carga.py:92-109): a missing value is
      `""` in a categorical or text column and `0` in a numeric one, and
      every other value is printed as Python's `str` prints it. */
  function CellText(kind: Kind, v: Value): (s: string)
    ensures v.Null? && kind == Numeric ==> s == "0"
    ensures v.Null? && kind != Numeric ==> s == ""
    ensures v.Str? ==> s == v.s
    ensures v.Num? ==> (v.n < 0 <==> |s| > 0 && s[0] == '-')
    ensures v.Num? && v.n >= 0 ==> AllDigits(s) && DigitsValue(s) == v.n
  {
    match v
    case Null => if kind == Numeric then "0" else ""
    case Str(x) => x
    case Num(n) => IntToString(n)
    case Flag(b) => if b then "True" else "False"
  }

  predicate HasColumns(t: Table, cols: seq<string>)
  {
    forall c :: c in cols ==> t.HasColumn(c)
  }

  /** The kind and value a row holds under column `name`. */
  function CellOf(t: Table, row: Row, name: string): (Kind, Value)
    requires t.HasColumn(name) && |row| == |t.columns|
  {
    var k := SlotOf(t, name);
    (t.columns[k].kind, row[k])
  }

  /** The key cells of a row as text, in `uid_cols` order. */
  function KeyParts(t: Table, cols: seq<string>, row: Row): (ps: seq<string>)
    requires HasColumns(t, cols) && |row| == |t.columns|
    ensures |ps| == |cols|
    ensures forall i :: 0 <= i < |cols| ==>
              ps[i] == CellText(CellOf(t, row, cols[i]).0, CellOf(t, row, cols[i]).1)
  {
    if cols == [] then []
    else
      var (kind, v) := CellOf(t, row, cols[0]);
      [CellText(kind, v)] + KeyParts(t, cols[1..], row)
  }

  /** Python's `"_".join(parts)`. */
  function JoinUnderscore(parts: seq<string>): (s: string)
    ensures parts == [] ==> s == ""
  {
    if parts == [] then "" else Join(parts, '_')
  }

  /** The joined key text can be split back into its parts when none of
      them holds `_`. */
  lemma JoinUnderscoreSplits(parts: seq<string>)
    requires parts != [] && forall k :: 0 <= k < |parts| ==> '_' !in parts[k]
    ensures Split(JoinUnderscore(parts), '_') == parts
  {
    JoinSplit(parts, '_');
  }

  // ---------------------------------------------------------------- normalisation

  /** Lower-case, fold to NFKD, drop what is not ASCII, keep only `[a-z0-9]`
      (carga.py:115-119). */
  function Normalize(lib: TextLib, s: string): (r: string)
    ensures AllKeyChars(r)
  {
    KeepKeyChars(DropNonAscii(lib.nfkd(lib.lower(s))))
  }

  lemma KeyCharsAreAscii(s: string)
    requires AllKeyChars(s)
    ensures IsAscii(s)
  {
  }

  /** On ASCII text the normaliser is lower-casing then the `[a-z0-9]` filter. */
  lemma NormalizeAscii(lib: TextLib, s: string)
    requires Faithful(lib) && IsAscii(s)
    ensures Normalize(lib, s) == KeepKeyChars(AsciiLower(s))
  {
    AsciiLowerConcat(s, "");
    assert s + "" == s;
    FilterAllKept(AsciiLower(s), IsAsciiChar);
  }

  /** Normalising a normalised key changes nothing. */
  lemma NormalizeIdempotent(lib: TextLib, s: string)
    requires Faithful(lib)
    ensures Normalize(lib, Normalize(lib, s)) == Normalize(lib, s)
  {
    var n := Normalize(lib, s);
    KeyCharsAreAscii(n);
    NormalizeAscii(lib, n);
    AsciiLowerKeyChars(n);
    FilterAllKept(n, IsKeyChar);
  }

  lemma AsciiSeparated(a: string, b: string)
    requires IsAscii(a) && IsAscii(b)
    ensures IsAscii(a + "_" + b) && IsAscii(a + b)
  {
  }

  /** The key filter drops a `_` between two texts. */
  lemma KeepKeyCharsDropsSeparator(x: string, y: string)
    ensures KeepKeyChars(x + "_" + y) == KeepKeyChars(x) + KeepKeyChars(y)
  {
    FilterConcat(x + "_", y, IsKeyChar);
    FilterConcat(x, "_", IsKeyChar);
    assert Filter("_", IsKeyChar) == "";
  }

  /** The `_` separator is itself stripped, so on ASCII text joining two
      cells with it gives the same key as plain concatenation. */
  lemma SeparatorVanishes(lib: TextLib, a: string, b: string)
    requires Faithful(lib) && IsAscii(a) && IsAscii(b)
    ensures Normalize(lib, a + "_" + b) == Normalize(lib, a + b)
  {
    AsciiSeparated(a, b);
    NormalizeAscii(lib, a + "_" + b);
    NormalizeAscii(lib, a + b);
    var la, lb := AsciiLower(a), AsciiLower(b);
    calc {
      AsciiLower(a + "_" + b);
      { AsciiLowerConcat(a + "_", b); }
      AsciiLower(a + "_") + lb;
      { AsciiLowerConcat(a, "_"); assert AsciiLower("_") == "_"; }
      la + "_" + lb;
    }
    KeepKeyCharsDropsSeparator(la, lb);
    AsciiLowerConcat(a, b);
    FilterConcat(la, lb, IsKeyChar);
  }

  /** Keys that agree up to ASCII case normalise alike. */
  lemma CaseInsensitive(lib: TextLib, a: string, b: string)
    requires Faithful(lib) && IsAscii(a) && IsAscii(b) && AsciiLower(a) == AsciiLower(b)
    ensures Normalize(lib, a) == Normalize(lib, b)
  {
    NormalizeAscii(lib, a);
    NormalizeAscii(lib, b);
  }

  // ---------------------------------------------------------------- hashing

  /** `text_tonum` (carga.py:63-69): the first 16 hex digits of the SHA-256
      digest read as a number, which is below 2^64. */
  function TextToNum(lib: TextLib, s: string): (n: nat)
    ensures n < 0x1_0000_0000_0000_0000
  {
    Pow16Is2To64();
    HexValue(lib.sha256(s)[..16])
  }

  /** `text_tonum(s) % (2**63)` (carga.py:123): because the prefix is below
      2^64 the reduction only clears the top bit, and the result fits a
      signed 64-bit column. */
  function UniqueId(lib: TextLib, s: string): (id: nat)
    ensures id < Modulus
    ensures TextToNum(lib, s) < Modulus ==> id == TextToNum(lib, s)
    ensures TextToNum(lib, s) >= Modulus ==> id == TextToNum(lib, s) - Modulus
  {
    TextToNum(lib, s) % Modulus
  }

  /** The normalised key string of one row. */
  function KeyText(lib: TextLib, t: Table, cols: seq<string>, row: Row): (s: string)
    requires HasColumns(t, cols) && |row| == |t.columns|
    ensures AllKeyChars(s)
  {
    Normalize(lib, JoinUnderscore(KeyParts(t, cols, row)))
  }

  /** The `unique_id` of one row. */
  function RowId(lib: TextLib, t: Table, cols: seq<string>, row: Row): (id: nat)
    requires HasColumns(t, cols) && |row| == |t.columns|
    ensures id < Modulus
  {
    UniqueId(lib, KeyText(lib, t, cols, row))
  }

  /** A row's key depends only on its `uid_cols` cells: two rows, possibly of
      tables with other columns or another column order, that agree on the
      kind and value of every key column get the same `unique_id`. */
  lemma {:induction false} KeyDependsOnlyOnKeyCells(t1: Table, r1: Row, t2: Table, r2: Row, cols: seq<string>)
    requires HasColumns(t1, cols) && |r1| == |t1.columns|
    requires HasColumns(t2, cols) && |r2| == |t2.columns|
    requires forall c :: c in cols ==> CellOf(t1, r1, c) == CellOf(t2, r2, c)
    ensures KeyParts(t1, cols, r1) == KeyParts(t2, cols, r2)
    ensures forall lib: TextLib :: RowId(lib, t1, cols, r1) == RowId(lib, t2, cols, r2)
  {
    if cols != [] {
      assert cols[0] in cols;
      KeyDependsOnlyOnKeyCells(t1, r1, t2, r2, cols[1..]);
    }
  }

  // ---------------------------------------------------------------- derivation

  /** The first `uid_cols` entry that is not a column (carga.py:84-86). */
  function FirstMissing(t: Table, cols: seq<string>): (m: Option<nat>)
    ensures m.None? <==> HasColumns(t, cols)
    ensures m.Some? ==> m.value < |cols| && !t.HasColumn(cols[m.value])
    ensures m.Some? ==> forall j :: 0 <= j < m.value ==> t.HasColumn(cols[j])
  {
    if cols == [] then None
    else if !t.HasColumn(cols[0]) then Some(0)
    else match FirstMissing(t, cols[1..])
      case None => None
      case Some(j) => Some(j + 1)
  }

  /** `unique_id_` for a list of key columns: fails naming the first key
      column the table lacks (and changes nothing), otherwise sets column
      `unique_id` to each row's key and leaves every other cell as it was. */
  function Derive(lib: TextLib, t: Table, cols: seq<string>): (r: Result<Table, string>)
    requires t.WellFormed()
    ensures r.Failure? <==> !HasColumns(t, cols)
    ensures r.Failure? ==> !t.HasColumn(r.error)
    ensures r.Failure? ==> exists j :: 0 <= j < |cols| && cols[j] == r.error && (forall i :: 0 <= i < j ==> t.HasColumn(cols[i]))
    ensures r.Success? ==> var t' := r.value; var k := SlotOf(t, KeyColumn);
              && t'.WellFormed() && |t'.rows| == |t.rows| && k < |t'.columns| && |t.columns| <= |t'.columns|
              && t'.columns[k] == Column(KeyColumn, Numeric)
              && (forall i :: 0 <= i < |t.rows| ==> t'.rows[i][k] == Num(RowId(lib, t, cols, t.rows[i])))
              && (forall i, j :: 0 <= i < |t.rows| && 0 <= j < |t.columns| && j != k ==>
                    t'.rows[i][j] == t.rows[i][j] && t'.columns[j] == t.columns[j])
    ensures r.Success? && !t.HasColumn(KeyColumn) ==> r.value.columns == t.columns + [Column(KeyColumn, Numeric)]
    ensures r.Success? && t.HasColumn(KeyColumn) ==>
              r.value.columns == t.columns[SlotOf(t, KeyColumn) := Column(KeyColumn, Numeric)]
  {
    match FirstMissing(t, cols)
    case Some(j) => Failure(cols[j])
    case None =>
      var ids := seq(|t.rows|, i requires 0 <= i < |t.rows| => Num(RowId(lib, t, cols, t.rows[i])));
      Success(WithColumn(t, KeyColumn, Numeric, ids))
  }
}

/** Worked examples of key derivation. */
module IdentityExamples {
  import opened Strings
  import opened Foreign
  import opened Tables
  import opened Identity

  /** Cells split differently around the separator collide: `("ab", "c")`
      and `("a", "bc")` give the same key. */
  lemma SplitCellsCollide(lib: TextLib)
    requires Faithful(lib)
    ensures Normalize(lib, JoinUnderscore(["ab", "c"])) == Normalize(lib, JoinUnderscore(["a", "bc"]))
  {
    assert JoinUnderscore(["ab", "c"]) == "ab" + "_" + "c";
    assert JoinUnderscore(["a", "bc"]) == "a" + "_" + "bc";
    SeparatorVanishes(lib, "ab", "c");
    SeparatorVanishes(lib, "a", "bc");
    assert "ab" + "c" == "a" + "bc";
  }

  function AnaTable(): Table
  {
    Table([Column("name", Textual), Column("email", Textual)],
          [[Str("Ana"), Str("a@x.com")], [Str("ana"), Str("A@x.com")]])
  }

  lemma AnaKeyParts()
    ensures HasColumns(AnaTable(), ["name", "email"])
    ensures KeyParts(AnaTable(), ["name", "email"], AnaTable().rows[0]) == ["Ana", "a@x.com"]
    ensures KeyParts(AnaTable(), ["name", "email"], AnaTable().rows[1]) == ["ana", "A@x.com"]
  {
    var t := AnaTable();
    assert t.Names() == ["name", "email"];
    assert SlotOf(t, "name") == 0 && SlotOf(t, "email") == 1;
  }

  lemma AnaTableParts()
    ensures HasColumns(AnaTable(), ["name", "email"])
    ensures JoinUnderscore(KeyParts(AnaTable(), ["name", "email"], AnaTable().rows[0])) == "Ana_a@x.com"
    ensures JoinUnderscore(KeyParts(AnaTable(), ["name", "email"], AnaTable().rows[1])) == "ana_A@x.com"
  {
    AnaKeyParts();
    JoinTwo("Ana", "a@x.com");
    JoinTwo("ana", "A@x.com");
    assert "Ana" + "_" + "a@x.com" == "Ana_a@x.com";
    assert "ana" + "_" + "A@x.com" == "ana_A@x.com";
  }

  lemma JoinTwo(a: string, b: string)
    ensures JoinUnderscore([a, b]) == a + "_" + b
  {
    assert [a, b][1..] == [b];
    assert Join([b], '_') == b;
  }

  lemma AnaTextsLowerAlike()
    ensures IsAscii("Ana_a@x.com") && IsAscii("ana_A@x.com")
    ensures AsciiLower("Ana_a@x.com") == AsciiLower("ana_A@x.com")
  {
    var a, b := "Ana_a@x.com", "ana_A@x.com";
    assert forall i :: 0 <= i < 11 ==> LowerChar(a[i]) == LowerChar(b[i]);
    var la, lb := AsciiLower(a), AsciiLower(b);
    assert forall i :: 0 <= i < 11 ==> la[i] == lb[i];
  }

  /** `("Ana", "a@x.com")` and `("ana", "A@x.com")` in two text columns get
      the same `unique_id`. */
  lemma CaseVariantsCollide(lib: TextLib)
    requires Faithful(lib)
    ensures HasColumns(AnaTable(), ["name", "email"])
    ensures RowId(lib, AnaTable(), ["name", "email"], AnaTable().rows[0])
         == RowId(lib, AnaTable(), ["name", "email"], AnaTable().rows[1])
  {
    AnaTableParts();
    AnaTextsLowerAlike();
    CaseInsensitive(lib, "Ana_a@x.com", "ana_A@x.com");
  }

  /** In a text key column a missing value and `""` give the same key. */
  lemma NullMatchesEmptyText(lib: TextLib)
    ensures var t := Table([Column("a", Textual)], [[Null], [Str("")], [Str("x")]]);
            HasColumns(t, ["a"]) && RowId(lib, t, ["a"], t.rows[0]) == RowId(lib, t, ["a"], t.rows[1])
  {
    var t := Table([Column("a", Textual)], [[Null], [Str("")], [Str("x")]]);
    assert t.Names() == ["a"];
    assert KeyParts(t, ["a"], t.rows[0]) == [""] == KeyParts(t, ["a"], t.rows[1]);
  }

  /** In a numeric key column a missing value reads as the number 0. */
  lemma NullMatchesZero(lib: TextLib)
    ensures var t := Table([Column("n", Numeric)], [[Null], [Num(0)]]);
            HasColumns(t, ["n"]) && RowId(lib, t, ["n"], t.rows[0]) == RowId(lib, t, ["n"], t.rows[1])
  {
    var t := Table([Column("n", Numeric)], [[Null], [Num(0)]]);
    assert t.Names() == ["n"];
    assert KeyParts(t, ["n"], t.rows[0]) == ["0"] == KeyParts(t, ["n"], t.rows[1]);
  }
}

=== FILE: lifecycle.dfy ===
/** The body of `load_all_data` after its argument checks (carga.py:157-258):
    read the target table; on success either truncate and append everything,
    or derive keys, drop the rows already stored and append the rest; if
    anything in that block raises, a "table missing" error turns into
    creating the table with all current rows, and any other error is
    raised again. Database calls are not made here: what the read and the
    two `to_sql` calls would return is passed in, and the writes that took
    effect are returned. */
module Lifecycle {
  import opened Wrappers
  import opened Strings
  import opened Foreign
  import opened Tables
  import opened Config
  import opened Identity
  import opened Reconcile

  /** What `pd.read_sql("SELECT * FROM schema.table")` gave. */
  datatype ReadOutcome = Snapshot(table: Table) | ReadFailed(message: string)

  /** What a `to_sql` call gave. */
  datatype WriteOutcome = Written | WriteFailed(message: string)

  /** What `truncate_table` did (carga.py:39-55). Its three statements run
      in one transaction inside a `try` that prints and drops their errors:
      a failed `TRUNCATE` (for instance on a table another table references
      by foreign key, since `CASCADE` is not given) leaves the table as it
      was and the load carries on. Opening the connection or the
      transaction, and committing it, happen outside that `try`; an error
      there leaves the table as it was and propagates to the load's
      `except`. */
  datatype TruncateOutcome =
    | TruncateOk
    | TruncateSwallowed(message: string)
    | TruncateRaised(message: string)

  /** A write that took effect on the target table. */
  datatype Write =
    | Truncated(target: TableRef)
    | Appended(target: TableRef, data: Table)
    | Created(target: TableRef, data: Table)

  datatype LoadError =
    | ConfigFailed(reason: ConfigError)   // ValueError before any database access
    | MissingColumn(name: string)         // ValueError from key derivation
    | KeyLookup(cause: JoinError)         // KeyError from the merge
    | Storage(message: string)            // error from the database or from `to_sql`

  /** `str(e)` for the errors the `try` block can raise. The merge's texts
      are pandas' `KeyError` texts; each names the column it is about. */
  function Message(e: LoadError): (m: string)
    requires !e.ConfigFailed?
    ensures e.MissingColumn? ==> OccursAt(m, e.name, 12)
    ensures e.KeyLookup? && e.cause.SnapshotLacks? ==> OccursAt(m, e.cause.key, 18)
    ensures e.KeyLookup? && e.cause.InputLacks? ==> m == "'" + e.cause.key + "'"
    ensures e.Storage? ==> m == e.message
  {
    match e
    case MissingColumn(c) => "La columna '" + c + "' no existe en el DataFrame"
    case KeyLookup(SnapshotLacks(k)) => "\"None of [Index(['" + k + "'], dtype='object')] are in the [columns]\""
    case KeyLookup(InputLacks(k)) => "'" + k + "'"
    case Storage(m) => m
  }

  /** The "table missing" test (carga.py:236-239) on the lower-cased message. */
  function IsMissingTable(lib: TextLib, message: string): (missing: bool)
    ensures missing <==> exists i :: OccursAt(lib.lower(message), "does not exist", i)
                                  || OccursAt(lib.lower(message), "invalid object name", i)
                                  || OccursAt(lib.lower(message), "no such table", i)
  {
    var m := lib.lower(message);
    ContainsIff(m, "does not exist");
    ContainsIff(m, "invalid object name");
    ContainsIff(m, "no such table");
    Contains(m, "does not exist") || Contains(m, "invalid object name") || Contains(m, "no such table")
  }

  /** The column the merge joins on: `uid_need` when it is truthy, that is
      non-empty, else `unique_id` (carga.py:198). */
  function JoinColumn(uidNeed: string): (key: string)
    ensures uidNeed != "" ==> key == uidNeed
    ensures uidNeed == "" ==> key == KeyColumn
  {
    if uidNeed != "" then uidNeed else KeyColumn
  }

  /** How far the `try` block (carga.py:180-227) got: to the end, or to an
      error, together with the writes done so far and the table the load
      held at that moment. */
  datatype Attempt =
    | Completed(writes: seq<Write>, added: nat)
    | Interrupted(writes: seq<Write>, error: LoadError, current: Table)

  /** Merge, keep the new rows, append them. */
  function AppendNew(t: Table, snapshot: Table, key: string, target: TableRef, append: WriteOutcome): (a: Attempt)
    requires t.WellFormed() && snapshot.WellFormed()
    ensures a.Interrupted? ==> a.current.WellFormed() && a.writes == [] && !a.error.ConfigFailed?
    ensures a.Completed? ==> |a.writes| == 1 && a.writes[0].Appended? && a.writes[0].target == target
                              && a.added == |a.writes[0].data.rows| <= |t.rows|
  {
    match AntiJoin(t, snapshot, key)
    case Failure(e) => Interrupted([], KeyLookup(e), t)
    case Success(kept) =>
      match append
      case Written => Completed([Appended(target, kept)], |kept.rows|)
      case WriteFailed(m) => Interrupted([], Storage(m), kept)
  }

  /** The `try` block. */
  function Try(lib: TextLib, mode: Mode, target: TableRef, input: Table,
               read: ReadOutcome, truncation: TruncateOutcome, append: WriteOutcome): (a: Attempt)
    requires input.WellFormed()
    requires read.Snapshot? ==> read.table.WellFormed()
    ensures a.Interrupted? ==> a.current.WellFormed() && !a.error.ConfigFailed?
    ensures a.Interrupted? && a.writes != [] ==>
              mode.TruncateAll? && truncation.TruncateOk? && a.writes == [Truncated(target)]
    ensures a.Completed? ==> read.Snapshot? && append.Written?
    ensures read.Snapshot? && mode.TruncateAll? && truncation.TruncateRaised? ==>
              a == Interrupted([], Storage(truncation.message), input)
    ensures a.Completed? && mode.TruncateAll? ==> a.added == |input.rows|
    ensures a.Completed? && mode.TruncateAll? && truncation.TruncateOk? ==>
              a.writes == [Truncated(target), Appended(target, input)]
    ensures a.Completed? && mode.TruncateAll? && truncation.TruncateSwallowed? ==>
              a.writes == [Appended(target, input)]
    ensures a.Completed? && !mode.TruncateAll? ==>
              |a.writes| == 1 && a.writes[0].Appended? && a.writes[0].target == target
              && a.added == |a.writes[0].data.rows| <= |input.rows|
  {
    match read
    case ReadFailed(m) => Interrupted([], Storage(m), input)
    case Snapshot(snapshot) =>
      match mode
      case TruncateAll =>
        if truncation.TruncateRaised? then Interrupted([], Storage(truncation.message), input)
        else
        var cleared := if truncation.TruncateOk? then [Truncated(target)] else [];
        (match append
         case Written => Completed(cleared + [Appended(target, input)], |input.rows|)
         case WriteFailed(m) => Interrupted(cleared, Storage(m), input))
      case DeriveKey(cols) =>
        (match Derive(lib, input, cols)
         case Failure(c) => Interrupted([], MissingColumn(c), input)
         case Success(keyed) => AppendNew(keyed, snapshot, KeyColumn, target, append))
      case ExistingKey(column) =>
        AppendNew(input, snapshot, JoinColumn(column), target, append)
  }

  /** The outcome of one `load_all_data` call. `notice` is the first line of
      the error message when the `except` branch ran; carga.py:234 prints it
      after the fixed prefix "Hubo un problema al acceder a la tabla en base
      de datos. ". */
  datatype Outcome =
    | Done(writes: seq<Write>, added: nat, notice: Option<string>)
    | Raised(writes: seq<Write>, error: LoadError, notice: Option<string>)

  /** The table the `except` branch creates when the target is missing
      (carga.py:241-250): column names lower-cased, then keys derived unless
      the load truncates. The derivation is given the caller's `uid_cols`
      unchanged, so a key column whose name has capitals is no longer found. */
  function Bootstrap(lib: TextLib, mode: Mode, current: Table): (r: Result<Table, string>)
    requires current.WellFormed()
    ensures r.Success? ==> r.value.WellFormed() && |r.value.rows| == |current.rows|
    ensures !mode.DeriveKey? ==> r == Success(LowerColumns(current, lib.lower))
    ensures mode.DeriveKey? ==> (r.Success? <==> HasColumns(LowerColumns(current, lib.lower), mode.cols))
    ensures r.Failure? ==> r.error in mode.cols && !LowerColumns(current, lib.lower).HasColumn(r.error)
    ensures r.Success? && mode.DeriveKey? ==>
              var lowered := LowerColumns(current, lib.lower);
              var k := SlotOf(lowered, KeyColumn);
              && |current.columns| <= |r.value.columns|
              && forall i, j :: 0 <= i < |current.rows| && 0 <= j < |current.columns| && j != k ==>
                   r.value.rows[i][j] == current.rows[i][j] && r.value.columns[j] == lowered.columns[j]
    ensures r.Success? && mode.DeriveKey? ==>
              var k := SlotOf(LowerColumns(current, lib.lower), KeyColumn);
              && k < |r.value.columns| && r.value.columns[k] == Column(KeyColumn, Numeric)
              && forall i :: 0 <= i < |current.rows| ==>
                   r.value.rows[i][k] == Num(RowId(lib, LowerColumns(current, lib.lower), mode.cols, current.rows[i]))
  {
    var lowered := LowerColumns(current, lib.lower);
    if mode.DeriveKey? then Derive(lib, lowered, mode.cols) else Success(lowered)
  }

  /** The `except` branch (carga.py:229-256): print the first line of the
      message; if the table is missing, lower-case the column names, derive
      keys unless truncating, and create the table with every current row;
      otherwise raise the error again. */
  function Recover(lib: TextLib, mode: Mode, target: TableRef, writes: seq<Write>,
                   e: LoadError, current: Table, create: WriteOutcome): (o: Outcome)
    requires current.WellFormed() && !e.ConfigFailed?
    ensures o.notice == Some(FirstLine(Message(e)))
    ensures |writes| <= |o.writes| && o.writes[..|writes|] == writes
    ensures !IsMissingTable(lib, Message(e)) ==> o == Raised(writes, e, o.notice)
    ensures o.Done? ==> IsMissingTable(lib, Message(e)) && create.Written?
    ensures o.Done? ==> |o.writes| == |writes| + 1 && o.writes[|writes|].Created?
    ensures o.Done? ==> o.writes == writes + [Created(target, o.writes[|writes|].data)]
    ensures o.Done? ==> o.added == |current.rows| == |o.writes[|writes|].data.rows|
    ensures o.Done? ==> Bootstrap(lib, mode, current).Success?
                        && o.writes[|writes|].data == Bootstrap(lib, mode, current).value
    ensures IsMissingTable(lib, Message(e)) && Bootstrap(lib, mode, current).Success? && create.Written? ==> o.Done?
    ensures o.Raised? ==> o.writes == writes
  {
    var notice := Some(FirstLine(Message(e)));
    if !IsMissingTable(lib, Message(e)) then Raised(writes, e, notice)
    else
      match Bootstrap(lib, mode, current)
      case Failure(c) => Raised(writes, MissingColumn(c), notice)
      case Success(t) =>
        match create
        case Written => Done(writes + [Created(target, t)], |t.rows|, notice)
        case WriteFailed(m) => Raised(writes, Storage(m), notice)
  }

  /** pandas' error when `to_sql` with the default `if_exists='fail'`
      meets an existing table. */
  function AlreadyExists(target: TableRef): (m: string)
    ensures OccursAt(m, target.table, 7)
  {
    "Table '" + target.table + "' already exists."
  }

  /** `load_all_data(input, outputTable, uid_cols, uid_need, truncate)`.
      The create in the `except` branch (carga.py:253) keeps `to_sql`'s
      default `if_exists='fail'`: once the read has succeeded the table
      exists, so that create fails whatever `create` says. */
  function Load(lib: TextLib, opts: Options, outputTable: string, input: Table,
                read: ReadOutcome, truncation: TruncateOutcome, append: WriteOutcome,
                create: WriteOutcome): (o: Outcome)
    requires input.WellFormed()
    requires read.Snapshot? ==> read.table.WellFormed()
    ensures Validate(opts, outputTable).Failure? ==>
              o == Raised([], ConfigFailed(Validate(opts, outputTable).error), None)
    ensures o.Raised? && o.error.ConfigFailed? ==> o.writes == [] && o.notice.None?
    ensures o.Done? ==> Validate(opts, outputTable).Success? && |o.writes| >= 1
    ensures o.Done? ==> var last := o.writes[|o.writes| - 1];
              !last.Truncated? && o.added == |last.data.rows|
    ensures read.Snapshot? ==> forall w :: w in o.writes ==> !w.Created?
  {
    match Validate(opts, outputTable)
    case Failure(ce) => Raised([], ConfigFailed(ce), None)
    case Success(plan) =>
      match Try(lib, plan.mode, plan.target, input, read, truncation, append)
      case Completed(writes, added) => Done(writes, added, None)
      case Interrupted(writes, e, current) =>
        var creation := if read.Snapshot? then WriteFailed(AlreadyExists(plan.target)) else create;
        Recover(lib, plan.mode, plan.target, writes, e, current, creation)
  }

  /** The rows the target table holds after a sequence of writes, starting
      from `before`. */
  function Contents(writes: seq<Write>, before: seq<Row>): seq<Row>
  {
    if writes == [] then before
    else
      var after := match writes[0]
        case Truncated(_) => []
        case Appended(_, t) => before + t.rows
        case Created(_, t) => t.rows;
      Contents(writes[1..], after)
  }
}

=== FILE: load_properties.dfy ===
/** Whole-call properties of `load_all_data`: what each path writes and
    reports, and how a second load of the same rows behaves. */
module LoadProperties {
  import opened Wrappers
  import opened Strings
  import opened Foreign
  import opened Tables
  import opened Config
  import opened Identity
  import opened Reconcile
  import opened Lifecycle

  /** A truncating load whose read, truncation and append succeed empties
      the table and appends every input row, whatever it held before. */
  lemma TruncateReplacesContents(lib: TextLib, opts: Options, out: string, input: Table,
                                 snapshot: Table, create: WriteOutcome, before: seq<Row>)
    requires input.WellFormed() && snapshot.WellFormed()
    requires Validate(opts, out).Success? && opts.truncate
    ensures var target := Validate(opts, out).value.target;
            var o := Load(lib, opts, out, input, Snapshot(snapshot), TruncateOk, Written, create);
            && o == Done([Truncated(target), Appended(target, input)], |input.rows|, None)
            && Contents(o.writes, before) == input.rows
  {
    var target := Validate(opts, out).value.target;
    assert Contents([Truncated(target), Appended(target, input)], before)
        == Contents([Appended(target, input)], []);
    assert [] + input.rows == input.rows;
    assert Contents([Appended(target, input)], []) == Contents([], [] + input.rows);
  }

  /** When `truncate_table` drops a failed statement's error, the load still appends every
      input row and reports them all, so the table keeps its old rows as
      well. */
  lemma SwallowedTruncateKeepsOldRows(lib: TextLib, opts: Options, out: string, input: Table,
                                      snapshot: Table, message: string, create: WriteOutcome,
                                      before: seq<Row>)
    requires input.WellFormed() && snapshot.WellFormed()
    requires Validate(opts, out).Success? && opts.truncate
    ensures var target := Validate(opts, out).value.target;
            var o := Load(lib, opts, out, input, Snapshot(snapshot), TruncateSwallowed(message), Written, create);
            && o == Done([Appended(target, input)], |input.rows|, None)
            && Contents(o.writes, before) == before + input.rows
  {
    var target := Validate(opts, out).value.target;
    assert Contents([Appended(target, input)], before) == Contents([], before + input.rows);
  }

  /** An incremental load with derived keys appends exactly the keyed input
      rows whose `unique_id` is not in the stored key column, and reports
      how many it appended. */
  lemma IncrementalAppendsOnlyNew(lib: TextLib, opts: Options, out: string, input: Table,
                                  snapshot: Table, truncation: TruncateOutcome, create: WriteOutcome)
    requires input.WellFormed() && snapshot.WellFormed()
    requires Validate(opts, out).Success? && !opts.truncate && opts.uidNeed.None?
    requires opts.uidCols.ColList? && HasColumns(input, opts.uidCols.names)
    requires snapshot.HasColumn(KeyColumn)
    ensures var target := Validate(opts, out).value.target;
            var keyed := Derive(lib, input, opts.uidCols.names).value;
            var k := SlotOf(keyed, KeyColumn);
            var kept := NewRows(keyed.rows, k, KeysOf(snapshot.rows, SlotOf(snapshot, KeyColumn)));
            && Derive(lib, input, opts.uidCols.names).Success?
            && keyed.HasColumn(KeyColumn) && HasSlot(keyed.rows, k)
            && Load(lib, opts, out, input, Snapshot(snapshot), truncation, Written, create)
               == Done([Appended(target, Table(keyed.columns, kept))], |kept|, None)
  {
    var keyed := Derive(lib, input, opts.uidCols.names).value;
    assert keyed.columns[SlotOf(input, KeyColumn)].name == KeyColumn;
    assert keyed.Names()[SlotOf(input, KeyColumn)] == KeyColumn;
  }

  /** Loading the same rows again appends nothing, once the table holds every
      key the first load found stored or appended, whatever other rows it
      holds and in whatever order the read returns them. */
  lemma SecondLoadAppendsNothing(lib: TextLib, opts: Options, out: string, input: Table,
                                 snapshot: Table, again: Table, truncation: TruncateOutcome,
                                 create: WriteOutcome)
    requires input.WellFormed() && snapshot.WellFormed() && again.WellFormed()
    requires Validate(opts, out).Success? && !opts.truncate && opts.uidNeed.None?
    requires opts.uidCols.ColList? && HasColumns(input, opts.uidCols.names)
    requires snapshot.HasColumn(KeyColumn) && again.HasColumn(KeyColumn)
    requires Derive(lib, input, opts.uidCols.names).Success?
    requires var keyed := Derive(lib, input, opts.uidCols.names).value;
             var k := SlotOf(keyed, KeyColumn);
             var persisted := KeysOf(snapshot.rows, SlotOf(snapshot, KeyColumn));
             keyed.HasColumn(KeyColumn) && HasSlot(keyed.rows, k) &&
             forall v :: v in persisted + KeysOf(NewRows(keyed.rows, k, persisted), k) ==>
                           v in KeysOf(again.rows, SlotOf(again, KeyColumn))
    ensures Load(lib, opts, out, input, Snapshot(again), truncation, Written, create).added == 0
  {
    IncrementalAppendsOnlyNew(lib, opts, out, input, again, truncation, create);
    var keyed := Derive(lib, input, opts.uidCols.names).value;
    var k := SlotOf(keyed, KeyColumn);
    SecondPassEmptyWithin(keyed.rows, k, KeysOf(snapshot.rows, SlotOf(snapshot, KeyColumn)),
                          KeysOf(again.rows, SlotOf(again, KeyColumn)));
  }

  /** When reading fails because the table is missing, a load with derived
      keys creates the table from the input with lower-cased column names and
      a `unique_id` column, inserting every input row once. */
  lemma MissingTableCreatedWithKeys(lib: TextLib, opts: Options, out: string, input: Table,
                                    message: string, truncation: TruncateOutcome, append: WriteOutcome)
    requires input.WellFormed()
    requires Validate(opts, out).Success? && !opts.truncate && opts.uidNeed.None?
    requires opts.uidCols.ColList? && HasColumns(LowerColumns(input, lib.lower), opts.uidCols.names)
    requires IsMissingTable(lib, message)
    ensures var target := Validate(opts, out).value.target;
            var created := Derive(lib, LowerColumns(input, lib.lower), opts.uidCols.names);
            && created.Success? && |created.value.rows| == |input.rows|
            && Load(lib, opts, out, input, ReadFailed(message), truncation, append, Written)
               == Done([Created(target, created.value)], |input.rows|, Some(FirstLine(message)))
  {
  }

  /** When reading fails because the table is missing, a truncating load or
      one with a caller-named key column creates the table from the input
      with lower-cased column names and nothing else changed. */
  lemma MissingTableCreatedAsIs(lib: TextLib, opts: Options, out: string, input: Table,
                                message: string, truncation: TruncateOutcome, append: WriteOutcome)
    requires input.WellFormed()
    requires Validate(opts, out).Success? && (opts.truncate || opts.uidNeed.Some?)
    requires IsMissingTable(lib, message)
    ensures var target := Validate(opts, out).value.target;
            Load(lib, opts, out, input, ReadFailed(message), truncation, append, Written)
              == Done([Created(target, LowerColumns(input, lib.lower))], |input.rows|, Some(FirstLine(message)))
  {
  }

  /** Any other read error is raised again after its first line is printed,
      and nothing is written. */
  lemma OtherReadErrorRaised(lib: TextLib, opts: Options, out: string, input: Table,
                             message: string, truncation: TruncateOutcome,
                             append: WriteOutcome, create: WriteOutcome)
    requires input.WellFormed()
    requires Validate(opts, out).Success? && !IsMissingTable(lib, message)
    ensures Load(lib, opts, out, input, ReadFailed(message), truncation, append, create)
              == Raised([], Storage(message), Some(FirstLine(message)))
  {
  }

  /** A truncating load whose truncation succeeds and whose append then
      fails with an ordinary error raises it with the table already emptied:
      the truncation is committed on its own. */
  lemma FailedAppendAfterTruncateLeavesTableEmpty(lib: TextLib, opts: Options, out: string, input: Table,
                                                  snapshot: Table, message: string,
                                                  create: WriteOutcome, before: seq<Row>)
    requires input.WellFormed() && snapshot.WellFormed()
    requires Validate(opts, out).Success? && opts.truncate && !IsMissingTable(lib, message)
    ensures var o := Load(lib, opts, out, input, Snapshot(snapshot), TruncateOk, WriteFailed(message), create);
            && o == Raised([Truncated(Validate(opts, out).value.target)], Storage(message), Some(FirstLine(message)))
            && Contents(o.writes, before) == []
  {
  }

  /** When the truncation was swallowed and the append then fails with an
      ordinary error, the error is raised and the table is left as it was. */
  lemma FailedAppendAfterSwallowedTruncateKeepsTable(lib: TextLib, opts: Options, out: string,
                                                     input: Table, snapshot: Table, swallowed: string,
                                                     message: string, create: WriteOutcome,
                                                     before: seq<Row>)
    requires input.WellFormed() && snapshot.WellFormed()
    requires Validate(opts, out).Success? && opts.truncate && !IsMissingTable(lib, message)
    ensures var o := Load(lib, opts, out, input, Snapshot(snapshot), TruncateSwallowed(swallowed),
                          WriteFailed(message), create);
            && o == Raised([], Storage(message), Some(FirstLine(message)))
            && Contents(o.writes, before) == before
  {
  }

  /** When `truncate_table` itself raises (its connection, transaction or
      commit fails), the append is skipped and an ordinary error is raised
      again with nothing written. */
  lemma RaisingTruncateSkipsAppend(lib: TextLib, opts: Options, out: string, input: Table,
                                   snapshot: Table, message: string, append: WriteOutcome,
                                   create: WriteOutcome, before: seq<Row>)
    requires input.WellFormed() && snapshot.WellFormed()
    requires Validate(opts, out).Success? && opts.truncate && !IsMissingTable(lib, message)
    ensures var o := Load(lib, opts, out, input, Snapshot(snapshot), TruncateRaised(message), append, create);
            && o == Raised([], Storage(message), Some(FirstLine(message)))
            && Contents(o.writes, before) == before
  {
  }

  /** An incremental load with a caller-named key column `uid_need` joins on
      that column: it appends exactly the input rows whose value there is
      not among the stored values of that column, and reports how many. */
  lemma ExistingKeyAppendsOnlyNew(lib: TextLib, opts: Options, out: string, input: Table,
                                  snapshot: Table, truncation: TruncateOutcome, create: WriteOutcome)
    requires input.WellFormed() && snapshot.WellFormed()
    requires Validate(opts, out).Success? && !opts.truncate
    requires opts.uidNeed.Some? && opts.uidNeed.value != ""
    requires input.HasColumn(opts.uidNeed.value) && snapshot.HasColumn(opts.uidNeed.value)
    ensures var c := opts.uidNeed.value;
            var kept := NewRows(input.rows, SlotOf(input, c), KeysOf(snapshot.rows, SlotOf(snapshot, c)));
            Load(lib, opts, out, input, Snapshot(snapshot), truncation, Written, create)
              == Done([Appended(Validate(opts, out).value.target, Table(input.columns, kept))], |kept|, None)
  {
  }

  /** `uid_need=""` skips key derivation (the test there is `is not None`)
      but the merge then joins on `unique_id` (the test there is
      truthiness): an input without that column makes the load raise
      pandas' `KeyError('unique_id')`. */
  lemma EmptyUidNeedJoinsOnUniqueId(lib: TextLib, opts: Options, out: string, input: Table,
                                    snapshot: Table, truncation: TruncateOutcome, append: WriteOutcome,
                                    create: WriteOutcome)
    requires Faithful(lib)
    requires input.WellFormed() && snapshot.WellFormed()
    requires Validate(opts, out).Success? && !opts.truncate && opts.uidNeed == Some("")
    requires snapshot.HasColumn(KeyColumn) && !input.HasColumn(KeyColumn)
    ensures Load(lib, opts, out, input, Snapshot(snapshot), truncation, append, create)
              == Raised([], KeyLookup(InputLacks(KeyColumn)), Some("'unique_id'"))
  {
    var plan := Validate(opts, out).value;
    var e := KeyLookup(InputLacks(KeyColumn));
    assert plan.mode == ExistingKey("");
    assert JoinColumn("") == KeyColumn;
    assert AntiJoin(input, snapshot, KeyColumn) == Failure(InputLacks(KeyColumn));
    assert Try(lib, plan.mode, plan.target, input, Snapshot(snapshot), truncation, append) == Interrupted([], e, input);
    KeyErrorIsNotMissingTable(lib);
    assert Recover(lib, plan.mode, plan.target, [], e, input, create) == Raised([], e, Some("'unique_id'"));
  }

  /** pandas' `KeyError('unique_id')` is not a "table missing" error, and
      its text is one line. */
  lemma KeyErrorIsNotMissingTable(lib: TextLib)
    requires Faithful(lib)
    ensures Message(KeyLookup(InputLacks(KeyColumn))) == "'unique_id'"
    ensures !IsMissingTable(lib, "'unique_id'")
    ensures FirstLine("'unique_id'") == "'unique_id'"
  {
    QuotedKeyLowersToItself();
    ShortTextNotMissing(lib, "'unique_id'");
    OneLine("'unique_id'");
  }

  /** A message of at most twelve characters, unchanged by lower-casing, is
      too short to hold any of the "table missing" phrases. */
  lemma ShortTextNotMissing(lib: TextLib, m: string)
    requires lib.lower(m) == m && |m| <= 12
    ensures !IsMissingTable(lib, m)
  {
  }

  lemma OneLine(m: string)
    requires '\n' !in m
    ensures FirstLine(m) == m
  {
  }

  lemma QuotedKeyLowersToItself()
    ensures IsAscii("'unique_id'") && AsciiLower("'unique_id'") == "'unique_id'"
  {
    var m := "'unique_id'";
    assert forall i :: 0 <= i < |m| ==> LowerChar(m[i]) == m[i];
  }
}

=== FILE: misread_finding.dfy ===
/** The `except` branch takes any error whose text contains "does not exist"
    for a missing table, even when the read before it succeeded. PostgreSQL
    words an append with an unknown column that way, so the load then tries
    to create a table that exists; `to_sql`'s default `if_exists='fail'`
    refuses, and the caller sees "already exists" instead of the cause. */
module MisreadFinding {
  import opened Wrappers
  import opened Strings
  import opened Foreign
  import opened Tables
  import opened Config
  import opened Lifecycle

  /** PostgreSQL's message for an insert naming a column the table lacks. */
  const ColumnError := "column \"x\" of relation \"t\" does not exist"

  lemma ColumnErrorLowersToItself()
    ensures IsAscii(ColumnError) && AsciiLower(ColumnError) == ColumnError
  {
    var m := ColumnError;
    assert forall i :: 0 <= i < |m| ==> LowerChar(m[i]) == m[i];
  }

  /** The unknown-column message passes the "table missing" test. */
  lemma ColumnErrorLooksLikeMissingTable(lib: TextLib)
    requires Faithful(lib)
    ensures IsMissingTable(lib, ColumnError)
  {
    ColumnErrorLowersToItself();
    assert OccursAt(ColumnError, "does not exist", |ColumnError| - 14);
  }

  /** As written: in a truncating load whose read and truncation succeed, an
      append error that reads as "table missing" leads to a create, which
      fails because the table exists. The load raises that failure, with
      the table already emptied. */
  lemma AppendErrorMasked(lib: TextLib, opts: Options, out: string, input: Table,
                          snapshot: Table, message: string, create: WriteOutcome)
    requires input.WellFormed() && snapshot.WellFormed()
    requires Validate(opts, out).Success? && opts.truncate && IsMissingTable(lib, message)
    ensures var target := Validate(opts, out).value.target;
            Load(lib, opts, out, input, Snapshot(snapshot), TruncateOk, WriteFailed(message), create)
              == Raised([Truncated(target)], Storage(AlreadyExists(target)), Some(FirstLine(message)))
  {
  }

  /** The counterexample: the unknown-column error is replaced by pandas'
      "already exists" error, which names neither the column nor the cause. */
  lemma ColumnErrorHidden(lib: TextLib, opts: Options, out: string, input: Table,
                          snapshot: Table, create: WriteOutcome)
    requires Faithful(lib)
    requires input.WellFormed() && snapshot.WellFormed()
    requires Validate(opts, out).Success? && opts.truncate
    ensures var o := Load(lib, opts, out, input, Snapshot(snapshot), TruncateOk, WriteFailed(ColumnError), create);
            o.Raised? && o.error != Storage(ColumnError)
  {
    ColumnErrorLooksLikeMissingTable(lib);
    AppendErrorMasked(lib, opts, out, input, snapshot, ColumnError, create);
    var target := Validate(opts, out).value.target;
    assert AlreadyExists(target)[0] == 'T' != ColumnError[0];
  }

  /** Corrected: when the read succeeded the table exists, so an error in
      the `try` block is raised again after its first line is printed, and
      the first-load create runs only after a failed read. */
  function LoadFixed(lib: TextLib, opts: Options, outputTable: string, input: Table,
                     read: ReadOutcome, truncation: TruncateOutcome, append: WriteOutcome,
                     create: WriteOutcome): (o: Outcome)
    requires input.WellFormed()
    requires read.Snapshot? ==> read.table.WellFormed()
    ensures read.ReadFailed? ==> o == Load(lib, opts, outputTable, input, read, truncation, append, create)
    ensures Validate(opts, outputTable).Success? && read.Snapshot? ==>
              var plan := Validate(opts, outputTable).value;
              var a := Try(lib, plan.mode, plan.target, input, read, truncation, append);
              && (a.Completed? ==> o == Done(a.writes, a.added, None))
              && (a.Interrupted? ==> o == Raised(a.writes, a.error, Some(FirstLine(Message(a.error)))))
    ensures Validate(opts, outputTable).Failure? ==> o == Load(lib, opts, outputTable, input, read, truncation, append, create)
  {
    match Validate(opts, outputTable)
    case Success(plan) =>
      (match Try(lib, plan.mode, plan.target, input, read, truncation, append)
       case Interrupted(writes, e, _) =>
         if read.Snapshot? then Raised(writes, e, Some(FirstLine(Message(e))))
         else Load(lib, opts, outputTable, input, read, truncation, append, create)
       case Completed(_, _) => Load(lib, opts, outputTable, input, read, truncation, append, create))
    case Failure(_) => Load(lib, opts, outputTable, input, read, truncation, append, create)
  }

  /** The corrected load reports the unknown-column error itself. */
  lemma ColumnErrorReportedWhenFixed(lib: TextLib, opts: Options, out: string, input: Table,
                                     snapshot: Table, create: WriteOutcome)
    requires input.WellFormed() && snapshot.WellFormed()
    requires Validate(opts, out).Success? && opts.truncate
    ensures LoadFixed(lib, opts, out, input, Snapshot(snapshot), TruncateOk, WriteFailed(ColumnError), create)
              == Raised([Truncated(Validate(opts, out).value.target)], Storage(ColumnError),
                        Some(FirstLine(ColumnError)))
  {
  }
}

=== FILE: numerals.dfy ===
/** Python's `str(n)` for integers and `int(h, 16)` for hexadecimal digit
    strings, each with its inverse. */
module Numerals {

  function Pow(b: nat, e: nat): (r: nat)
    ensures b >= 1 ==> r >= 1
  {
    if e == 0 then 1 else b * Pow(b, e - 1)
  }

  // ---------------------------------------------------------------- decimal

  predicate IsDigit(c: char) { '0' <= c <= '9' }

  predicate AllDigits(s: string) { forall i :: 0 <= i < |s| ==> IsDigit(s[i]) }

  function DigitChar(d: nat): (c: char)
    requires d < 10
    ensures IsDigit(c)
  {
    ('0' as int + d) as char
  }

  /** The value of a string of decimal digits, most significant first. */
  function DigitsValue(s: string): nat
    requires AllDigits(s)
  {
    if s == [] then 0 else DigitsValue(s[..|s| - 1]) * 10 + (s[|s| - 1] as int - '0' as int)
  }

  /** Python's `str(n)` for a natural number: the shortest decimal numeral,
      with no leading zero unless the number is zero. */
  function NatToString(n: nat): (s: string)
    ensures |s| >= 1 && AllDigits(s)
    ensures s[0] == '0' ==> n == 0
    decreases n
  {
    if n < 10 then [DigitChar(n)] else NatToString(n / 10) + [DigitChar(n % 10)]
  }

  /** Reading back the numeral printed for `n` gives `n`. */
  lemma {:induction false} NatToStringRoundTrip(n: nat)
    ensures DigitsValue(NatToString(n)) == n
    decreases n
  {
    if n >= 10 {
      NatToStringRoundTrip(n / 10);
      var s := NatToString(n);
      assert s[..|s| - 1] == NatToString(n / 10);
    }
  }

  /** Python's `str(i)` for any integer: a minus sign before negative values. */
  function IntToString(i: int): (s: string)
    ensures |s| >= 1
    ensures i < 0 <==> s[0] == '-'
    ensures i >= 0 ==> AllDigits(s) && DigitsValue(s) == i
    ensures i < 0 ==> AllDigits(s[1..]) && DigitsValue(s[1..]) == -i
  {
    if i < 0 then
      NatToStringRoundTrip(-i);
      var d := NatToString(-i);
      assert ("-" + d)[1..] == d;
      "-" + d
    else
      NatToStringRoundTrip(i);
      NatToString(i)
  }

  // ---------------------------------------------------------------- hexadecimal

  /** The lower-case digits a hex digest is written in. */
  predicate IsHexDigit(c: char) { '0' <= c <= '9' || 'a' <= c <= 'f' }

  predicate AllHexDigits(s: string) { forall i :: 0 <= i < |s| ==> IsHexDigit(s[i]) }

  function HexDigitValue(c: char): (d: nat)
    requires IsHexDigit(c)
    ensures d < 16
  {
    if '0' <= c <= '9' then c as int - '0' as int else c as int - 'a' as int + 10
  }

  function HexDigitChar(d: nat): (c: char)
    requires d < 16
    ensures IsHexDigit(c) && HexDigitValue(c) == d
  {
    if d < 10 then ('0' as int + d) as char else ('a' as int + d - 10) as char
  }

  /** Python's `int(s, 16)` on a string of hex digits: a `k`-digit string
      denotes a number below `16^k`. */
  function HexValue(s: string): (n: nat)
    requires AllHexDigits(s)
    ensures n < Pow(16, |s|)
  {
    if s == [] then 0
    else
      var high := HexValue(s[..|s| - 1]);
      var low := HexDigitValue(s[|s| - 1]);
      assert high * 16 + low < Pow(16, |s| - 1) * 16 by {
        assert high <= Pow(16, |s| - 1) - 1;
        assert high * 16 <= (Pow(16, |s| - 1) - 1) * 16;
      }
      high * 16 + low
  }

  /** A string of `n` zero digits. */
  function Zeros(n: nat): (s: string)
    ensures |s| == n && AllHexDigits(s) && AllDigits(s)
  {
    seq(n, _ => '0')
  }

  /** `n` written as exactly `width` lower-case hex digits, zero-padded. */
  function ToHex(n: nat, width: nat): (s: string)
    requires n < Pow(16, width)
    ensures |s| == width && AllHexDigits(s)
  {
    if width == 0 then ""
    else ToHex(n / 16, width - 1) + [HexDigitChar(n % 16)]
  }

  /** Reading back the fixed-width hex numeral of `n` gives `n`. */
  lemma {:induction false} HexRoundTrip(n: nat, width: nat)
    requires n < Pow(16, width)
    ensures HexValue(ToHex(n, width)) == n
  {
    if width == 0 {
      assert n == 0;
    } else {
      HexRoundTrip(n / 16, width - 1);
      var s := ToHex(n, width);
      assert s[..|s| - 1] == ToHex(n / 16, width - 1);
    }
  }

  lemma {:induction false} PowAdd(b: nat, m: nat, n: nat)
    ensures Pow(b, m + n) == Pow(b, m) * Pow(b, n)
  {
    if m > 0 {
      PowAdd(b, m - 1, n);
    }
  }

  /** Sixteen hex digits span exactly the 64-bit range. */
  lemma Pow16Is2To64()
    ensures Pow(16, 16) == 0x1_0000_0000_0000_0000
  {
    assert Pow(16, 4) == 0x1_0000;
    PowAdd(16, 4, 4);
    PowAdd(16, 8, 8);
  }
}

=== FILE: reconcile.dfy ===
/** Reconciliation (carga.py:198-216): a left merge of the incoming rows with
    the persisted key column, keeping the `left_only` rows. That is a left
    anti-join, which on rows is an order-preserving filter. */
module Reconcile {
  import opened Wrappers
  import opened Tables

  /** Every row has a cell at position `k`. */
  predicate HasSlot(rows: seq<Row>, k: nat)
  {
    forall i :: 0 <= i < |rows| ==> k < |rows[i]|
  }

  /** The cells of column `k`, top to bottom. */
  function KeysOf(rows: seq<Row>, k: nat): (ks: seq<Value>)
    requires HasSlot(rows, k)
    ensures |ks| == |rows| && forall i :: 0 <= i < |rows| ==> ks[i] == rows[i][k]
  {
    seq(|rows|, i requires 0 <= i < |rows| && k < |rows[i]| => rows[i][k])
  }

  /** The rows whose key cell is not among the persisted keys, in order. */
  function NewRows(rows: seq<Row>, k: nat, persisted: seq<Value>): (rs: seq<Row>)
    requires HasSlot(rows, k)
    ensures |rs| <= |rows| && HasSlot(rs, k)
    ensures forall i :: 0 <= i < |rs| ==> rs[i] in rows && rs[i][k] !in persisted
  {
    if rows == [] then []
    else
      var rest := NewRows(rows[1..], k, persisted);
      if rows[0][k] in persisted then rest else [rows[0]] + rest
  }

  /** `xs` is `ys` with some elements removed, the rest in their order. */
  predicate Subsequence<T(==)>(xs: seq<T>, ys: seq<T>)
    decreases |ys|
  {
    if xs == [] then true
    else if ys == [] then false
    else (xs[0] == ys[0] && Subsequence(xs[1..], ys[1..])) || Subsequence(xs, ys[1..])
  }

  /** The kept rows appear in their original relative order. */
  lemma {:induction false} NewRowsInOrder(rows: seq<Row>, k: nat, persisted: seq<Value>)
    requires HasSlot(rows, k)
    ensures Subsequence(NewRows(rows, k, persisted), rows)
  {
    if rows != [] {
      NewRowsInOrder(rows[1..], k, persisted);
      var rest := NewRows(rows[1..], k, persisted);
      if rows[0][k] !in persisted {
        assert ([rows[0]] + rest)[1..] == rest;
      }
    }
  }

  /** Exactly the rows with a new key are kept, each as often as it occurs
      in the input (duplicates included), unchanged. */
  lemma {:induction false} NewRowsCount(rows: seq<Row>, k: nat, persisted: seq<Value>, r: Row)
    requires HasSlot(rows, k)
    ensures multiset(NewRows(rows, k, persisted))[r] ==
              if k < |r| && r[k] in persisted then 0 else multiset(rows)[r]
  {
    if rows != [] {
      NewRowsCount(rows[1..], k, persisted, r);
      assert rows == [rows[0]] + rows[1..];
    }
  }

  /** A row whose key is not persisted is kept. */
  lemma NewRowKept(rows: seq<Row>, k: nat, persisted: seq<Value>, i: nat)
    requires HasSlot(rows, k) && i < |rows| && rows[i][k] !in persisted
    ensures rows[i] in NewRows(rows, k, persisted)
  {
    NewRowsCount(rows, k, persisted, rows[i]);
    assert rows[i] in multiset(rows);
  }

  /** When every key is already persisted nothing is appended. */
  lemma {:induction false} AllPersistedNothingNew(rows: seq<Row>, k: nat, persisted: seq<Value>)
    requires HasSlot(rows, k)
    requires forall i :: 0 <= i < |rows| ==> rows[i][k] in persisted
    ensures NewRows(rows, k, persisted) == []
  {
    if rows != [] {
      assert rows[0][k] in persisted;
      AllPersistedNothingNew(rows[1..], k, persisted);
    }
  }

  /** Re-running the filter after the new rows were stored keeps nothing:
      the second incremental load of the same rows appends zero rows. */
  lemma SecondPassEmpty(rows: seq<Row>, k: nat, persisted: seq<Value>)
    requires HasSlot(rows, k)
    ensures NewRows(rows, k, persisted + KeysOf(NewRows(rows, k, persisted), k)) == []
  {
    var added := NewRows(rows, k, persisted);
    var stored := persisted + KeysOf(added, k);
    forall i | 0 <= i < |rows| ensures rows[i][k] in stored {
      if rows[i][k] !in persisted {
        NewRowKept(rows, k, persisted, i);
        var j :| 0 <= j < |added| && added[j] == rows[i];
        assert KeysOf(added, k)[j] == rows[i][k];
      }
    }
    AllPersistedNothingNew(rows, k, stored);
  }

  /** The same holds whatever else the stored key column contains and in
      whatever order it is read: any stored key column that holds the
      earlier keys and the newly added ones makes the filter keep nothing. */
  lemma SecondPassEmptyWithin(rows: seq<Row>, k: nat, persisted: seq<Value>, stored: seq<Value>)
    requires HasSlot(rows, k)
    requires forall v :: v in persisted + KeysOf(NewRows(rows, k, persisted), k) ==> v in stored
    ensures NewRows(rows, k, stored) == []
  {
    var added := NewRows(rows, k, persisted);
    forall i | 0 <= i < |rows| ensures rows[i][k] in stored {
      if rows[i][k] !in persisted {
        NewRowKept(rows, k, persisted, i);
        var j :| 0 <= j < |added| && added[j] == rows[i];
        assert KeysOf(added, k)[j] == rows[i][k];
      }
      assert rows[i][k] in persisted + KeysOf(added, k);
    }
    AllPersistedNothingNew(rows, k, stored);
  }

  /** The filter as the load runs it, one row at a time. */
  method FilterNew(rows: seq<Row>, k: nat, persisted: seq<Value>) returns (kept: seq<Row>)
    requires HasSlot(rows, k)
    ensures kept == NewRows(rows, k, persisted)
    ensures forall i :: 0 <= i < |kept| ==> kept[i][k] !in persisted
  {
    kept := [];
    var n := |rows|;
    while n > 0
      invariant 0 <= n <= |rows|
      invariant kept == NewRows(rows[n..], k, persisted)
    {
      n := n - 1;
      assert rows[n..][1..] == rows[n + 1..];
      if rows[n][k] !in persisted {
        kept := [rows[n]] + kept;
      }
    }
    assert rows[0..] == rows;
  }

  datatype JoinError = SnapshotLacks(key: string) | InputLacks(key: string)

  /** `input.merge(snapshot[[key]], on=key, how='left', indicator=True)`
      restricted to `left_only`: the snapshot's key column is selected first,
      so a snapshot without it fails before the input is looked at. The kept
      rows are those whose key cell is not a persisted key. */
  function AntiJoin(input: Table, snapshot: Table, key: string): (r: Result<Table, JoinError>)
    requires input.WellFormed() && snapshot.WellFormed()
    ensures !snapshot.HasColumn(key) ==> r == Failure(SnapshotLacks(key))
    ensures snapshot.HasColumn(key) && !input.HasColumn(key) ==> r == Failure(InputLacks(key))
    ensures r.Success? <==> snapshot.HasColumn(key) && input.HasColumn(key)
    ensures r.Success? ==> r.value.columns == input.columns && r.value.WellFormed()
    ensures r.Success? ==> var k := SlotOf(input, key);
              HasSlot(input.rows, k) && HasSlot(snapshot.rows, SlotOf(snapshot, key)) &&
              r.value.rows == NewRows(input.rows, k, KeysOf(snapshot.rows, SlotOf(snapshot, key)))
  {
    if !snapshot.HasColumn(key) then Failure(SnapshotLacks(key))
    else if !input.HasColumn(key) then Failure(InputLacks(key))
    else
      var k := SlotOf(input, key);
      var persisted := KeysOf(snapshot.rows, SlotOf(snapshot, key));
      var kept := NewRows(input.rows, k, persisted);
      assert forall i :: 0 <= i < |kept| ==> |kept[i]| == |input.columns| by {
        forall i | 0 <= i < |kept| ensures |kept[i]| == |input.columns| {
          var j :| 0 <= j < |input.rows| && input.rows[j] == kept[i];
        }
      }
      Success(Table(input.columns, kept))
  }
}

=== FILE: report.dfy ===
/** `reportar_datos_aniadidos` (carga.py:262-269): the appended-row count
    printed between two sentinel lines as the JSON object
    `{"datos_aniadidos": N}`, for other tools to scrape. */
module Report {
  import opened Wrappers
  import opened Numerals
  import opened Lifecycle

  const Opening: string := "===DATA_ANIADIDOS===\n{\"datos_aniadidos\": "
  const Closing: string := "}\n===FIN_DATA_ANIADIDOS===\n"

  /** The three printed lines, each ended by `print`'s newline. */
  function ReportText(added: nat): (text: string)
    ensures |text| > |Opening| + |Closing|
    ensures text[..|Opening|] == Opening && text[|text| - |Closing|..] == Closing
  {
    Opening + NatToString(added) + Closing
  }

  /** What a downstream tool reads back from the report: the number
      between the fixed opening and closing text. */
  function ParseReport(text: string): (n: Option<nat>)
  {
    if |text| > |Opening| + |Closing|
       && text[..|Opening|] == Opening && text[|text| - |Closing|..] == Closing
       && AllDigits(text[|Opening|..|text| - |Closing|])
    then Some(DigitsValue(text[|Opening|..|text| - |Closing|]))
    else None
  }

  /** The report carries the count faithfully: reading it back gives the
      number of rows appended. */
  lemma ReportRoundTrip(added: nat)
    ensures ParseReport(ReportText(added)) == Some(added)
  {
    var d := NatToString(added);
    var text := ReportText(added);
    assert text[|Opening|..|text| - |Closing|] == d;
    NatToStringRoundTrip(added);
  }

  /** The text a finished load prints; a load that raised prints none. */
  function Printed(o: Outcome): (text: Option<string>)
    ensures text.Some? <==> o.Done?
    ensures o.Done? ==> ParseReport(text.value) == Some(o.added)
  {
    match o
    case Done(_, added, _) => ReportRoundTrip(added); Some(ReportText(added))
    case Raised(_, _, _) => None
  }
}

=== FILE: strings.dfy ===
/** Character-level text helpers with Python's meaning: ASCII lower-casing,
    character filters (the `encode("ascii", "ignore")` step and the
    `[^a-z0-9]` substitution), substring search (`in`) and `str.split`. */
module Strings {

  predicate IsAsciiChar(c: char) { c as int < 128 }

  /** The characters the key normaliser keeps: `[a-z0-9]`. */
  predicate IsKeyChar(c: char) { 'a' <= c <= 'z' || '0' <= c <= '9' }

  predicate IsAscii(s: string) { forall i :: 0 <= i < |s| ==> IsAsciiChar(s[i]) }

  predicate AllKeyChars(s: string) { forall i :: 0 <= i < |s| ==> IsKeyChar(s[i]) }

  /** Python's `str.lower` restricted to one ASCII character. */
  function LowerChar(c: char): char
  {
    if 'A' <= c <= 'Z' then (c as int + 32) as char else c
  }

  /** Python's `str.lower` on an ASCII string. */
  function AsciiLower(s: string): (r: string)
    ensures |r| == |s|
    ensures forall i :: 0 <= i < |s| ==> r[i] == LowerChar(s[i])
  {
    seq(|s|, i requires 0 <= i < |s| => LowerChar(s[i]))
  }

  /** Lower-casing leaves a string without capitals unchanged. */
  lemma AsciiLowerKeyChars(s: string)
    requires AllKeyChars(s)
    ensures AsciiLower(s) == s
  {
  }

  /** The characters of `s` that satisfy `keep`, in their original order. */
  function Filter(s: string, keep: char -> bool): (r: string)
    ensures |r| <= |s|
    ensures forall i :: 0 <= i < |r| ==> keep(r[i])
    ensures forall i :: 0 <= i < |s| && keep(s[i]) ==> s[i] in r
    ensures forall i :: 0 <= i < |r| ==> r[i] in s
  {
    if s == [] then []
    else
      var rest := Filter(s[1..], keep);
      assert forall i :: 1 <= i < |s| ==> s[i] == s[1..][i - 1];
      if keep(s[0]) then [s[0]] + rest else rest
  }

  /** Filtering keeps a string whose characters all pass. */
  lemma {:induction false} FilterAllKept(s: string, keep: char -> bool)
    requires forall i :: 0 <= i < |s| ==> keep(s[i])
    ensures Filter(s, keep) == s
  {
    if s != [] {
      FilterAllKept(s[1..], keep);
    }
  }

  /** Filtering twice with the same test is filtering once. */
  lemma FilterIdempotent(s: string, keep: char -> bool)
    ensures Filter(Filter(s, keep), keep) == Filter(s, keep)
  {
    FilterAllKept(Filter(s, keep), keep);
  }

  /** Filtering a concatenation filters each half. */
  lemma {:induction false} FilterConcat(s: string, t: string, keep: char -> bool)
    ensures Filter(s + t, keep) == Filter(s, keep) + Filter(t, keep)
  {
    if s == [] {
      assert s + t == t;
    } else {
      assert (s + t)[0] == s[0];
      assert (s + t)[1..] == s[1..] + t;
      FilterConcat(s[1..], t, keep);
    }
  }

  /** Lower-casing works character by character, so it distributes over `+`
      and keeps ASCII text ASCII. */
  lemma AsciiLowerConcat(s: string, t: string)
    ensures AsciiLower(s + t) == AsciiLower(s) + AsciiLower(t)
    ensures IsAscii(s) ==> IsAscii(AsciiLower(s))
  {
    assert forall i :: 0 <= i < |s + t| ==> AsciiLower(s + t)[i] == (AsciiLower(s) + AsciiLower(t))[i];
  }

  /** Python's `s.encode("ascii", "ignore").decode()`: non-ASCII characters are dropped. */
  function DropNonAscii(s: string): (r: string)
    ensures IsAscii(r)
  {
    Filter(s, IsAsciiChar)
  }

  /** Python's `re.sub(r'[^a-z0-9]', '', s)`. */
  function KeepKeyChars(s: string): (r: string)
    ensures AllKeyChars(r)
  {
    Filter(s, IsKeyChar)
  }

  // ---------------------------------------------------------------- substring search

  predicate OccursAt(s: string, pat: string, i: int)
  {
    0 <= i && i + |pat| <= |s| && s[i..i + |pat|] == pat
  }

  /** Python's `pat in s`, computed by scanning from the left. */
  predicate Contains(s: string, pat: string)
    decreases |s|
  {
    if |s| < |pat| then false
    else s[..|pat|] == pat || (s != [] && Contains(s[1..], pat))
  }

  /** The scan finds `pat` exactly when it occurs at some position. */
  lemma {:induction false} ContainsIff(s: string, pat: string)
    ensures Contains(s, pat) <==> exists i :: OccursAt(s, pat, i)
    decreases |s|
  {
    if |s| < |pat| {
      forall i | OccursAt(s, pat, i) ensures false { }
    } else if s[..|pat|] == pat {
      assert OccursAt(s, pat, 0);
    } else {
      assert pat != [];
      ContainsIff(s[1..], pat);
      if Contains(s[1..], pat) {
        var j :| OccursAt(s[1..], pat, j);
        assert s[j + 1..j + 1 + |pat|] == s[1..][j..j + |pat|];
        assert OccursAt(s, pat, j + 1);
      } else {
        forall i | OccursAt(s, pat, i) ensures false {
          assert i != 0;
          assert s[1..][i - 1..i - 1 + |pat|] == s[i..i + |pat|];
          assert OccursAt(s[1..], pat, i - 1);
        }
      }
    }
  }

  // ---------------------------------------------------------------- str.split

  function Occurrences(s: string, c: char): nat
  {
    if s == [] then 0 else (if s[0] == c then 1 else 0) + Occurrences(s[1..], c)
  }

  /** Python's `s.split(sep)` for a one-character separator: never empty, no
      part holds the separator, and the first part is the prefix before the
      first separator. */
  function Split(s: string, sep: char): (parts: seq<string>)
    ensures |parts| >= 1
    ensures forall k :: 0 <= k < |parts| ==> sep !in parts[k]
    ensures parts[0] <= s
    ensures |parts[0]| < |s| ==> s[|parts[0]|] == sep
  {
    if s == [] then [""]
    else
      var rest := Split(s[1..], sep);
      if s[0] == sep then [""] + rest
      else [[s[0]] + rest[0]] + rest[1..]
  }

  /** Python's `sep.join(parts)`. */
  function Join(parts: seq<string>, sep: char): string
    requires |parts| >= 1
  {
    if |parts| == 1 then parts[0] else parts[0] + [sep] + Join(parts[1..], sep)
  }

  /** Splitting yields one more part than there are separators. */
  lemma {:induction false} SplitCount(s: string, sep: char)
    ensures |Split(s, sep)| == Occurrences(s, sep) + 1
  {
    if s != [] {
      SplitCount(s[1..], sep);
    }
  }

  /** Joining the parts with the separator gives back the original string. */
  lemma {:induction false} SplitJoin(s: string, sep: char)
    ensures Join(Split(s, sep), sep) == s
  {
    if s != [] {
      SplitJoin(s[1..], sep);
      var rest := Split(s[1..], sep);
      if s[0] == sep {
        assert Split(s, sep)[1..] == rest;
      } else if |rest| == 1 {
        assert Split(s, sep) == [[s[0]] + rest[0]];
      } else {
        assert Split(s, sep)[1..] == rest[1..];
      }
    }
  }

  /** A string free of the separator is one part. */
  lemma {:induction false} SplitWithoutSeparator(a: string, sep: char)
    requires sep !in a
    ensures Split(a, sep) == [a]
  {
    if a != [] {
      SplitWithoutSeparator(a[1..], sep);
      assert [a[0]] + a[1..] == a;
    }
  }

  /** A separator-free prefix followed by the separator splits off as the
      first part. */
  lemma {:induction false} SplitAfterPrefix(a: string, sep: char, b: string)
    requires sep !in a
    ensures Split(a + [sep] + b, sep) == [a] + Split(b, sep)
  {
    if a == [] {
      assert ([] + [sep] + b)[1..] == b;
    } else {
      SplitAfterPrefix(a[1..], sep, b);
      assert (a + [sep] + b)[1..] == a[1..] + [sep] + b;
      assert [a[0]] + a[1..] == a;
    }
  }

  /** Splitting a join of separator-free parts gives the parts back. */
  lemma {:induction false} JoinSplit(parts: seq<string>, sep: char)
    requires |parts| >= 1
    requires forall k :: 0 <= k < |parts| ==> sep !in parts[k]
    ensures Split(Join(parts, sep), sep) == parts
  {
    if |parts| == 1 {
      SplitWithoutSeparator(parts[0], sep);
    } else {
      JoinSplit(parts[1..], sep);
      SplitAfterPrefix(parts[0], sep, Join(parts[1..], sep));
      assert [parts[0]] + parts[1..] == parts;
    }
  }

  /** Python's `s.split("\n")[0]`: the text before the first newline. */
  function FirstLine(s: string): (r: string)
    ensures r <= s
    ensures '\n' !in r
    ensures |r| < |s| ==> s[|r|] == '\n'
  {
    Split(s, '\n')[0]
  }
}

=== FILE: tables.dfy ===
/** The in-memory dataset (a pandas DataFrame): named, typed columns and
    rows of scalar cells, row order significant. */
module Tables {
  import opened Wrappers

  /** The pandas dtype family that decides how a key cell becomes text. */
  datatype Kind = Categorical | Numeric | Textual

  /** A cell. Numeric values are integers; `Null` is pandas' missing value. */
  datatype Value = Null | Str(s: string) | Num(n: int) | Flag(b: bool)

  datatype Column = Column(name: string, kind: Kind)

  type Row = seq<Value>

  datatype Table = Table(columns: seq<Column>, rows: seq<Row>) {
    /** Every row has one cell per column. */
    predicate WellFormed()
    {
      forall i :: 0 <= i < |rows| ==> |rows[i]| == |columns|
    }

    function Names(): (ns: seq<string>)
      ensures |ns| == |columns|
      ensures forall i :: 0 <= i < |columns| ==> ns[i] == columns[i].name
    {
      seq(|columns|, i requires 0 <= i < |columns| => columns[i].name)
    }

    predicate HasColumn(name: string)
    {
      name in Names()
    }
  }

  /** Position of the first column called `name`, if any. */
  function IndexOf(names: seq<string>, name: string): (r: Option<nat>)
    ensures r.Some? ==> r.value < |names| && names[r.value] == name
    ensures r.Some? ==> forall j :: 0 <= j < r.value ==> names[j] != name
    ensures r.None? <==> name !in names
  {
    if names == [] then None
    else if names[0] == name then Some(0)
    else match IndexOf(names[1..], name)
      case None => None
      case Some(k) => Some(k + 1)
  }

  /** Every row with its cell `k` replaced by the matching value. */
  function ReplaceCells(rows: seq<Row>, k: nat, values: seq<Value>): (rs: seq<Row>)
    requires |values| == |rows| && forall i :: 0 <= i < |rows| ==> k < |rows[i]|
    ensures |rs| == |rows|
    ensures forall i :: 0 <= i < |rows| ==> rs[i] == rows[i][k := values[i]]
  {
    seq(|rows|, i requires 0 <= i < |rows| && k < |rows[i]| => rows[i][k := values[i]])
  }

  /** Every row with the matching value appended. */
  function AppendCells(rows: seq<Row>, values: seq<Value>): (rs: seq<Row>)
    requires |values| == |rows|
    ensures |rs| == |rows|
    ensures forall i :: 0 <= i < |rows| ==> rs[i] == rows[i] + [values[i]]
  {
    seq(|rows|, i requires 0 <= i < |rows| => rows[i] + [values[i]])
  }

  /** Where `WithColumn(t, name, ...)` puts the column. */
  function SlotOf(t: Table, name: string): (k: nat)
    ensures k <= |t.columns|
    ensures k == |t.columns| <==> !t.HasColumn(name)
    ensures k < |t.columns| ==> t.columns[k].name == name
  {
    match IndexOf(t.Names(), name)
    case Some(k) => k
    case None => |t.columns|
  }

  /** `df[name] = values`: an existing column of that name is overwritten in
      place, otherwise the column is appended on the right; every other
      column and cell stays as it was. */
  function WithColumn(t: Table, name: string, kind: Kind, values: seq<Value>): (t': Table)
    requires t.WellFormed() && |values| == |t.rows|
    ensures t'.WellFormed() && |t'.rows| == |t.rows| && |t.columns| <= |t'.columns|
    ensures var k := SlotOf(t, name);
      && k < |t'.columns| && t'.columns[k] == Column(name, kind)
      && (forall i :: 0 <= i < |t.rows| ==> t'.rows[i][k] == values[i])
    ensures !t.HasColumn(name) ==> t'.columns == t.columns + [Column(name, kind)]
    ensures t.HasColumn(name) ==> t'.columns == t.columns[SlotOf(t, name) := Column(name, kind)]
    ensures forall i, j :: 0 <= i < |t.rows| && 0 <= j < |t.columns| && j != SlotOf(t, name)
              ==> t'.rows[i][j] == t.rows[i][j]
  {
    var k := SlotOf(t, name);
    if k < |t.columns| then
      var t' := Table(t.columns[k := Column(name, kind)], ReplaceCells(t.rows, k, values));
      t'
    else
      var t' := Table(t.columns + [Column(name, kind)], AppendCells(t.rows, values));
      t'
  }

  /** `df.columns = df.columns.str.lower()`: every column name is passed
      through `lower`; kinds and cells are untouched. */
  function LowerColumns(t: Table, lower: string -> string): (t': Table)
    ensures t'.rows == t.rows && |t'.columns| == |t.columns|
    ensures t.WellFormed() ==> t'.WellFormed()
    ensures forall k :: 0 <= k < |t.columns| ==>
              t'.columns[k] == Column(lower(t.columns[k].name), t.columns[k].kind)
  {
    Table(seq(|t.columns|, k requires 0 <= k < |t.columns| =>
                Column(lower(t.columns[k].name), t.columns[k].kind)),
          t.rows)
  }
}

=== FILE: wrappers.dfy ===
/** Outcomes that may be absent or may have failed. `Result` supports the
    `:-` operator, so a failed step ends the enclosing computation with its
    failure. */
module Wrappers {

  /** A value that may be missing. */
  datatype Option<+T> = None | Some(value: T)

  /** The value of a successful step, or the error that stopped it. */
  datatype Result<+R, +E> = Success(value: R) | Failure(error: E) {
    predicate IsFailure() { Failure? }

    function PropagateFailure<U>(): Result<U, E>
      requires Failure?
    {
      Failure(error)
    }

    function Extract(): R
      requires Success?
    {
      value
    }
  }
}
